=== FILE: README.md ===
# Calculator expression evaluator, modelled in Dafny

This project models the expression evaluator of an Android calculator, found in
`parser/SyntacticAnalyzer.kt`. The evaluator has two stages:

- **Lexer.** `lexicalAnalyze` turns the input string into a list of lexemes that ends in one EOF lexeme.
- **Evaluator.** A recursive-descent parser evaluates while it parses. It has four levels:
  `expression`, `plusMinus`, `multiplyDivision` and `factor`. The levels share one `LexemeBuffer`
  cursor. `calculateResult` runs both stages and returns a `Long` when the result is within `1e-12`
  of its truncation, and a `Double` otherwise.

The modules follow that structure:

- `Results` (`results.dfy`) holds `Option`, `Result` and the error outcomes:
  - an unexpected lexeme, with its text and position;
  - a literal that does not convert;
  - a read past the end of the lexeme list;
  - a division by zero.
- `Lexer` (`lexer.dfy`) holds tokens, lexemes and `lexicalAnalyze`. The loop over the input is the
  recursive function `Scan`. Its contract says that a scan succeeds exactly when no character is
  rejected. On failure it reports the first rejected character, with its index.
- `Literals` (`literals.dfy`) models `String.toDouble`. It covers the only texts a NUMBER lexeme can
  hold: runs of digits, `.`, `e` and `E`. Which of them convert is also described character by
  character (`LiteralShape`), and the two descriptions are proved to agree.
- `Evaluator` (`evaluator.dfy`) holds the cursor, the four grammar levels and `calculateResult`:
  - The cursor is an index into an immutable lexeme list.
  - Each grammar level is a function from an index to a value and a new index, or to an error.
  - Where the source steps the cursor back after a loop, the model returns the index of the lexeme it
    stepped back over.
- `Syntax` (`syntax.dfy`) is an independent reference semantics. It defines syntax trees shaped like
  the grammar, the lexemes that spell each tree, and each tree's value, evaluated left to right.
- `ParserProofs` (`parser_proofs.dfy`) proves the evaluator agrees with the reference semantics. On
  the lexemes of any well-formed tree, each grammar level:
  - consumes exactly that tree's lexemes;
  - returns the tree's value;
  - leaves the cursor where the source leaves it.
- `TokenProofs` (`token_proofs.dfy`) proves that the grammar levels read a lexeme by its token
  alone, except the text of a NUMBER. Two lexeme lists that agree on tokens and NUMBER texts are
  evaluated alike, unless an unexpected lexeme is reported, whose text may differ. So `/` and `÷`
  are the same operator.
- `CalculatorProofs` (`calculator_proofs.dfy`) lifts this to `calculateResult` on strings: on any
  input that lexes to the lexemes of a well-formed tree, up to the spelling of operators and
  followed by anything that cannot continue the expression. It also proves that blank input
  gives 0.
- `Examples` (`examples.dfy`) works through concrete inputs. Each one is derived from the general
  theorems.

## Model

| member | source | states |
|---|---|---|
| Lexer.IsNumberChar | app/src/main/java/com/example/calculator/parser/SyntacticAnalyzer.kt:65 | the character test of lines 65 and 76: a number character is exactly a digit, `.`, or a character whose lower-case form is `e` |
| Lexer.OperatorToken | app/src/main/java/com/example/calculator/parser/SyntacticAnalyzer.kt:57-62 | the one-character lexemes: `/` and `÷`, and only they, are DIV; no operator is NUMBER or EOF, and no operator character is a space or a number character, so the order in which the `when` tries the three classes does not matter |
| Lexer.RunLength | app/src/main/java/com/example/calculator/parser/SyntacticAnalyzer.kt:65-80 | the NUMBER run collected by the do-while loop: every character in it is a digit, `.`, `e` or `E`, and the character after it (if any) is not, so the run is maximal |
| Lexer.FirstRejected | app/src/main/java/com/example/calculator/parser/SyntacticAnalyzer.kt:56-87 | the index of the first character that is neither an operator, a space nor a number character; every character before it is accepted |
| Lexer.FirstRejectedAfter | app/src/main/java/com/example/calculator/parser/SyntacticAnalyzer.kt:65-81 | consuming a prefix of accepted characters (a NUMBER run) shifts the first rejected index by the prefix length, so a later error is reported at its index in the whole input |
| Lexer.Scan | app/src/main/java/com/example/calculator/parser/SyntacticAnalyzer.kt:53-92 | lexing a suffix that starts at `offset` succeeds exactly when no character is rejected; otherwise it fails with an unexpected lexeme naming the first rejected character and its 0-based index in the input |
| Lexer.ScanFirstToken | app/src/main/java/com/example/calculator/parser/SyntacticAnalyzer.kt:56-81 | when the input does not start with a space, the first lexeme of a successful scan is a NUMBER exactly when the first character is a number character |
| Lexer.ScanOnEnd | app/src/main/java/com/example/calculator/parser/SyntacticAnalyzer.kt:94-95 | one-step unfolding used by the proofs: at the end of the input the lexer adds the EOF lexeme with empty text |
| Lexer.ScanOnOperator | app/src/main/java/com/example/calculator/parser/SyntacticAnalyzer.kt:57-62 | one-step unfolding used by the proofs: `(`, `)`, `+`, `-`, `*`, `/` and `÷` each give one lexeme of their kind holding that character, and lexing continues after it |
| Lexer.ScanOnSpace | app/src/main/java/com/example/calculator/parser/SyntacticAnalyzer.kt:63 | one-step unfolding used by the proofs: a space gives no lexeme and lexing continues after it |
| Lexer.ScanOnNumber | app/src/main/java/com/example/calculator/parser/SyntacticAnalyzer.kt:65-81 | one-step unfolding used by the proofs: a number character starts one NUMBER lexeme holding the whole maximal run, and lexing continues after the run |
| Lexer.ScanSpells | app/src/main/java/com/example/calculator/parser/SyntacticAnalyzer.kt:57-81 | the texts of the lexemes of a successful scan, concatenated, are the input with its spaces removed |
| Lexer.ScanSeparated | app/src/main/java/com/example/calculator/parser/SyntacticAnalyzer.kt:65-81 | without spaces in the input, no NUMBER lexeme directly follows another: each run is maximal |
| Lexer.ScanTerminated | app/src/main/java/com/example/calculator/parser/SyntacticAnalyzer.kt:49-96 | a successful scan ends in exactly one EOF lexeme, with empty text, and every lexeme before it is a valid operator or NUMBER lexeme |
| Lexer.ScanRoundTrip | app/src/main/java/com/example/calculator/parser/SyntacticAnalyzer.kt:49-96 | lexing the texts of a lexeme list the lexer can produce gives that list back, followed by EOF |
| Lexer.LexicalAnalyze | app/src/main/java/com/example/calculator/parser/SyntacticAnalyzer.kt:49-96 | `lexicalAnalyze`: succeeds exactly when every character is accepted; on success the list is well terminated and spells the input without spaces (and has no adjacent NUMBER lexemes when the input has no spaces); on failure it names the first rejected character at its 0-based index |
| Lexer.LexFailsAt | app/src/main/java/com/example/calculator/parser/SyntacticAnalyzer.kt:82-87 | when some character is rejected, lexing fails naming the first such character and its 0-based index, whatever follows it |
| Lexer.LexRoundTrip | app/src/main/java/com/example/calculator/parser/SyntacticAnalyzer.kt:49-96 | lexing is the inverse of spelling on lexable lexeme lists |
| Lexer.ScanBlank | app/src/main/java/com/example/calculator/parser/SyntacticAnalyzer.kt:53-94 | empty or all-space input lexes to the EOF lexeme alone |
| Lexer.BlankLexesToEof | app/src/main/java/com/example/calculator/parser/SyntacticAnalyzer.kt:49-96 | the input lexes to the EOF lexeme alone if and only if it is empty or all spaces |
| Literals.FirstExponentMark | app/src/main/java/com/example/calculator/parser/SyntacticAnalyzer.kt:179 | the position of the first `e`/`E` of a literal, which splits it into mantissa and exponent |
| Literals.ParseLiteral | app/src/main/java/com/example/calculator/parser/SyntacticAnalyzer.kt:179 | `toDouble` on a NUMBER text: a converted value is never negative (the lexer cannot put a sign in a literal); which texts convert is given by `Literals.LiteralShapeIff`, and the values by the lemmas below |
| Literals.DigitsLiteral | app/src/main/java/com/example/calculator/parser/SyntacticAnalyzer.kt:179 | a non-empty run of digits converts to its decimal value |
| Literals.FractionLiteral | app/src/main/java/com/example/calculator/parser/SyntacticAnalyzer.kt:179 | `w.f` converts to `wf` divided by 10 to the power of the number of digits in `f` when at least one side has a digit (`2.5`, `.5`, `5.`), and fails for a lone `.` |
| Literals.TwoPointsLiteral | app/src/main/java/com/example/calculator/parser/SyntacticAnalyzer.kt:179 | a literal with two points before any exponent mark does not convert, whatever follows the second point (`1.2.3`, `1.2.3e`, `1.2.3e4`, `1.2.3.4`) |
| Literals.ExponentLiteral | app/src/main/java/com/example/calculator/parser/SyntacticAnalyzer.kt:179 | `m e x` with digit runs `m` and `x` converts to `m * 10^x` |
| Literals.PointExponentLiteral | app/src/main/java/com/example/calculator/parser/SyntacticAnalyzer.kt:179 | `w.f e x` converts to `wf / 10^k * 10^x`, where `k` is the number of digits in `f`, when `w` or `f` holds a digit (`2.5e3`, `5.e2`, `.5e1`), and fails for `.e x` |
| Literals.BadExponentLiteral | app/src/main/java/com/example/calculator/parser/SyntacticAnalyzer.kt:179 | an exponent mark with no mantissa before it does not convert whatever follows it, and one after a digit run with nothing after it does not either (`e5`, `e2e3`, `5e`) |
| Literals.ExponentTailLiteral | app/src/main/java/com/example/calculator/parser/SyntacticAnalyzer.kt:179 | whatever the mantissa, a literal whose part after the first exponent mark is empty or holds a non-digit does not convert (`2.5e`, `1e2e3`, `1e2.3`) |
| Literals.MantissaShapeIff | app/src/main/java/com/example/calculator/parser/SyntacticAnalyzer.kt:179 | splitting a mantissa at its first point converts it exactly when it holds only digits and points, at most one point and at least one digit |
| Literals.LiteralShapeIff | app/src/main/java/com/example/calculator/parser/SyntacticAnalyzer.kt:179 | a NUMBER text converts exactly when the part before its first exponent mark is such a mantissa and, if there is a mark, the part after it is a non-empty run of digits; every other text throws |
| Evaluator.Next | app/src/main/java/com/example/calculator/parser/SyntacticAnalyzer.kt:36-38 | `next` returns the lexeme under the cursor when there is one, and is an index-out-of-bounds failure at the end of the list |
| Evaluator.Apply | app/src/main/java/com/example/calculator/parser/SyntacticAnalyzer.kt:131-151 | the four arithmetic steps; the result is a number exactly when both operands are and it is not a division by zero |
| Evaluator.Signed | app/src/main/java/com/example/calculator/parser/SyntacticAnalyzer.kt:171-179 | the factor's sign: the value multiplied by `-1.0` after a leading `-` and by `1.0` otherwise; a value from a division by zero stays one |
| Evaluator.Expression | app/src/main/java/com/example/calculator/parser/SyntacticAnalyzer.kt:110-120 | an EOF lexeme is consumed (not stepped back over) and gives 0; on success the cursor has advanced |
| Evaluator.PlusMinus | app/src/main/java/com/example/calculator/parser/SyntacticAnalyzer.kt:124-139 | on success the cursor has advanced and rests on a lexeme that is neither `+` nor `-` |
| Evaluator.PlusMinusLoop | app/src/main/java/com/example/calculator/parser/SyntacticAnalyzer.kt:127-138 | the loop stops on, and steps back over, the first lexeme that is neither `+` nor `-`, returning the running result unchanged |
| Evaluator.MultiplyDivision | app/src/main/java/com/example/calculator/parser/SyntacticAnalyzer.kt:141-167 | on success the cursor has advanced and rests on a lexeme that is none of `*`, `/` and `(` |
| Evaluator.MultiplyDivisionLoop | app/src/main/java/com/example/calculator/parser/SyntacticAnalyzer.kt:144-166 | the loop stops on, and steps back over, the first lexeme that is none of `*`, `/` and `(`, returning the running result unchanged |
| Evaluator.Factor | app/src/main/java/com/example/calculator/parser/SyntacticAnalyzer.kt:169-198 | a factor succeeds only on a NUMBER or `(`, optionally after one `-`; a second `-`, or any other lexeme where a factor must start, is an unexpected lexeme reported with the cursor just past it |
| Evaluator.Truncate | app/src/main/java/com/example/calculator/parser/SyntacticAnalyzer.kt:104 | truncation toward zero, as `toLong` does on doubles in range |
| Evaluator.ToLong | app/src/main/java/com/example/calculator/parser/SyntacticAnalyzer.kt:104 | `toLong`: the truncation when it fits a 64-bit Long; `Long.MAX_VALUE` above that range and `Long.MIN_VALUE` below it |
| Evaluator.LongToDouble | app/src/main/java/com/example/calculator/parser/SyntacticAnalyzer.kt:104 | the Long widened back to a Double for the subtraction `result - result.toLong()`: exact below `Long.MAX_VALUE`, and 2^63 for `Long.MAX_VALUE`, which no double holds |
| Evaluator.Collapse | app/src/main/java/com/example/calculator/parser/SyntacticAnalyzer.kt:104-107 | the result is a Long exactly when the value is within 1e-12 of its truncation (for truncations from `Long.MIN_VALUE` up to `Long.MAX_VALUE`, exclusive) or of 2^63 (from `Long.MAX_VALUE` on, where `toLong` saturates), and never below the Long range; the Long is `toLong` of the value; otherwise the value itself is the Double result |
| Evaluator.CollapseWhole | app/src/main/java/com/example/calculator/parser/SyntacticAnalyzer.kt:104-105 | a whole value from `Long.MIN_VALUE` up to `Long.MAX_VALUE`, exclusive, comes back as that Long |
| Evaluator.CollapseJustAbove | app/src/main/java/com/example/calculator/parser/SyntacticAnalyzer.kt:104-105 | a value less than 1e-12 above a non-negative whole number below `Long.MAX_VALUE` comes back as that Long |
| Evaluator.CollapseJustBelow | app/src/main/java/com/example/calculator/parser/SyntacticAnalyzer.kt:104-107 | a value less than 1e-12 below a positive whole number stays a Double: the comparison is with the truncation, not the rounding |
| Evaluator.CollapseJustBelowNegative | app/src/main/java/com/example/calculator/parser/SyntacticAnalyzer.kt:104-105 | a value less than 1e-12 below a whole number that is not positive truncates to that number and comes back as that Long (`-3 - 1e-13` is the Long -3) |
| Evaluator.CollapseJustAboveNegative | app/src/main/java/com/example/calculator/parser/SyntacticAnalyzer.kt:104-107 | a value less than 1e-12 above a negative whole number truncates toward zero, away from it, and stays a Double (`-3 + 1e-13`) |
| Evaluator.CollapseSaturated | app/src/main/java/com/example/calculator/parser/SyntacticAnalyzer.kt:104-105 | 2^63 saturates to `Long.MAX_VALUE`, which widens back to 2^63, so the result is the Long 2^63 - 1 |
| Evaluator.CalculateResult | app/src/main/java/com/example/calculator/parser/SyntacticAnalyzer.kt:100-108 | a lexing error is the result; a Long result is in the 64-bit range |
| ParserProofs.FactorOnNumber | app/src/main/java/com/example/calculator/parser/SyntacticAnalyzer.kt:169-179 | `factor` on an optionally signed NUMBER gives its converted, signed value and moves past it, or the literal's conversion error |
| ParserProofs.FactorOnGroup | app/src/main/java/com/example/calculator/parser/SyntacticAnalyzer.kt:169-190 | `factor` on an optionally signed `(` gives the signed value of the inner expression and moves past the `)` |
| ParserProofs.ExpressionUnfold | app/src/main/java/com/example/calculator/parser/SyntacticAnalyzer.kt:110-120 | one-step unfolding used by the proofs: on a lexeme other than EOF, `expression` steps back and is `plusMinus` |
| ParserProofs.ExpressionStops | app/src/main/java/com/example/calculator/parser/SyntacticAnalyzer.kt:110-139 | on the lexemes of a well-formed sum followed by a NUMBER, `)` or EOF, `expression` gives the sum's value and leaves the cursor on that lexeme |
| ParserProofs.GroupParses | app/src/main/java/com/example/calculator/parser/SyntacticAnalyzer.kt:180-190 | inside brackets, `expression` stops on the closing bracket with the inner sum's value |
| ParserProofs.FactorParses | app/src/main/java/com/example/calculator/parser/SyntacticAnalyzer.kt:169-198 | `factor` consumes exactly the lexemes of a well-formed factor and gives its reference value |
| ParserProofs.LiteralParses | app/src/main/java/com/example/calculator/parser/SyntacticAnalyzer.kt:173-179 | the same for a signed or unsigned literal |
| ParserProofs.BracketedFactorParses | app/src/main/java/com/example/calculator/parser/SyntacticAnalyzer.kt:180-190 | the same for a signed or unsigned bracketed expression |
| ParserProofs.MultiplyDivisionUnfold | app/src/main/java/com/example/calculator/parser/SyntacticAnalyzer.kt:141-142 | one-step unfolding used by the proofs: `multiplyDivision` is a factor followed by its loop, with a factor's error passed on |
| ParserProofs.MultiplyDivisionLoopOnOperator | app/src/main/java/com/example/calculator/parser/SyntacticAnalyzer.kt:147-149 | on `*` or `/` the loop folds the next factor into the running result, left to right |
| ParserProofs.MultiplyDivisionLoopOnGroup | app/src/main/java/com/example/calculator/parser/SyntacticAnalyzer.kt:150-160 | on `(` the loop multiplies the running result by the bracketed expression and continues after the `)` |
| ParserProofs.MultiplyDivisionLoopOnUnclosedGroup | app/src/main/java/com/example/calculator/parser/SyntacticAnalyzer.kt:150-159 | on `(`, when the bracketed expression is followed by anything but `)`, the loop fails naming that lexeme with the cursor just past it |
| ParserProofs.ProductParses | app/src/main/java/com/example/calculator/parser/SyntacticAnalyzer.kt:141-167 | `multiplyDivision` consumes a well-formed product's lexemes and continues its loop with the product's value |
| ParserProofs.MultiplicativeParses | app/src/main/java/com/example/calculator/parser/SyntacticAnalyzer.kt:144-149 | the same for a product ending in `* factor` or `/ factor`, which folds to the left |
| ParserProofs.JuxtaposedParses | app/src/main/java/com/example/calculator/parser/SyntacticAnalyzer.kt:150-160 | the same for a product followed by a bracketed expression, which multiplies |
| ParserProofs.ProductStops | app/src/main/java/com/example/calculator/parser/SyntacticAnalyzer.kt:141-167 | a product followed by a lexeme that ends it gives its value and leaves the cursor on that lexeme |
| ParserProofs.PlusMinusUnfold | app/src/main/java/com/example/calculator/parser/SyntacticAnalyzer.kt:124-125 | one-step unfolding used by the proofs: `plusMinus` is a product followed by its loop, with a product's error passed on |
| ParserProofs.PlusMinusLoopOnOperator | app/src/main/java/com/example/calculator/parser/SyntacticAnalyzer.kt:130-132 | on `+` or `-` the loop folds the next product into the running result, left to right |
| ParserProofs.SumParses | app/src/main/java/com/example/calculator/parser/SyntacticAnalyzer.kt:124-139 | `plusMinus` consumes a well-formed sum's lexemes and gives its value, stopping on the lexeme after it |
| ParserProofs.AdditiveParses | app/src/main/java/com/example/calculator/parser/SyntacticAnalyzer.kt:130-132 | the same for a sum ending in `+ product` or `- product`, which folds to the left |
| ParserProofs.ExpressionParses | app/src/main/java/com/example/calculator/parser/SyntacticAnalyzer.kt:110-139 | from the first lexeme, `expression` gives the value of any well-formed expression followed by a NUMBER, `)` or EOF |
| ParserProofs.LeadingFactorFails | app/src/main/java/com/example/calculator/parser/SyntacticAnalyzer.kt:110-142 | a failing first factor makes the whole expression fail with the same error |
| ParserProofs.FactorOnUnclosedGroup | app/src/main/java/com/example/calculator/parser/SyntacticAnalyzer.kt:169-189 | a bracketed expression, with or without a leading `-`, followed by anything but `)` fails, naming that lexeme with the cursor just past it |
| ParserProofs.UnclosedGroupFails | app/src/main/java/com/example/calculator/parser/SyntacticAnalyzer.kt:180-189 | `(` followed by a complete expression and EOF fails at the EOF lexeme, whose text is empty |
| ParserProofs.JuxtaposedUnclosedFails | app/src/main/java/com/example/calculator/parser/SyntacticAnalyzer.kt:141-159 | a product followed by `(`, a complete expression and EOF fails at the EOF lexeme, whose text is empty, with the cursor one past it |
| TokenProofs.ExpressionSameTokens | app/src/main/java/com/example/calculator/parser/SyntacticAnalyzer.kt:110-120 | `expression` gives the same result on two lexeme lists with the same tokens and the same NUMBER texts, unless that result is an unexpected lexeme |
| TokenProofs.PlusMinusSameTokens | app/src/main/java/com/example/calculator/parser/SyntacticAnalyzer.kt:124-125 | the same for `plusMinus` |
| TokenProofs.PlusMinusLoopSameTokens | app/src/main/java/com/example/calculator/parser/SyntacticAnalyzer.kt:127-138 | the same for the loop of `plusMinus` |
| TokenProofs.MultiplyDivisionSameTokens | app/src/main/java/com/example/calculator/parser/SyntacticAnalyzer.kt:141-142 | the same for `multiplyDivision` |
| TokenProofs.MultiplyDivisionLoopSameTokens | app/src/main/java/com/example/calculator/parser/SyntacticAnalyzer.kt:144-166 | the same for the loop of `multiplyDivision`, where `*` and `/` or `÷` are told apart by token alone |
| TokenProofs.GroupLoopSameTokens | app/src/main/java/com/example/calculator/parser/SyntacticAnalyzer.kt:150-160 | the same for the loop's implicit multiplication by a bracketed expression |
| TokenProofs.FactorSameTokens | app/src/main/java/com/example/calculator/parser/SyntacticAnalyzer.kt:169-198 | the same for `factor`, which reads the text of a NUMBER only |
| CalculatorProofs.CalculateRendered | app/src/main/java/com/example/calculator/parser/SyntacticAnalyzer.kt:100-108 | on the text of every well-formed expression, `calculateResult` gives the reference value, collapsed |
| CalculatorProofs.CalculateIgnoresTrailing | app/src/main/java/com/example/calculator/parser/SyntacticAnalyzer.kt:100-108 | lexemes after a complete expression are never read: a NUMBER or `)` there leaves the result unchanged |
| CalculatorProofs.CalculateLexed | app/src/main/java/com/example/calculator/parser/SyntacticAnalyzer.kt:100-108 | on any input that lexes to the lexemes of a well-formed expression, up to the spelling of operators, followed by a NUMBER, `)` or EOF, `calculateResult` gives the reference value, collapsed; spaces, `÷` and trailing input included |
| CalculatorProofs.BlankIsZero | app/src/main/java/com/example/calculator/parser/SyntacticAnalyzer.kt:100-114 | empty or all-space input evaluates to the Long 0 |
| Examples.PrecedenceExample | app/src/main/java/com/example/calculator/parser/SyntacticAnalyzer.kt:124-167 | `2+3*4` is 14 |
| Examples.LeftFoldExample | app/src/main/java/com/example/calculator/parser/SyntacticAnalyzer.kt:124-139 | `10-2-3` is 5 |
| Examples.DivisionFoldExample | app/src/main/java/com/example/calculator/parser/SyntacticAnalyzer.kt:141-167 | `8/4/2` is 1 |
| Examples.DivisionSignFoldExample | app/src/main/java/com/example/calculator/parser/SyntacticAnalyzer.kt:62 | `8÷4÷2` is 1, as `8/4/2` is |
| Examples.ImplicitMultiplicationExample | app/src/main/java/com/example/calculator/parser/SyntacticAnalyzer.kt:150-160 | `3(4-1)` is 9 |
| Examples.BracketExample | app/src/main/java/com/example/calculator/parser/SyntacticAnalyzer.kt:180-190 | `(2+3)*4` is 20 |
| Examples.UnaryMinusExample | app/src/main/java/com/example/calculator/parser/SyntacticAnalyzer.kt:169-179 | `-5+3` is -2 |
| Examples.FractionExample | app/src/main/java/com/example/calculator/parser/SyntacticAnalyzer.kt:100-108 | `5/2` is the Double 2.5 |
| Examples.DivisionByZeroExample | app/src/main/java/com/example/calculator/parser/SyntacticAnalyzer.kt:149 | `1/0` is the division-by-zero outcome |
| Examples.BadLiteralExample | app/src/main/java/com/example/calculator/parser/SyntacticAnalyzer.kt:179 | `1+2e` fails converting the literal `2e` |
| Examples.DoubleMinusExample | app/src/main/java/com/example/calculator/parser/SyntacticAnalyzer.kt:169-195 | `--5` fails at the second `-`, position 2 |
| Examples.SignedOperandExample | app/src/main/java/com/example/calculator/parser/SyntacticAnalyzer.kt:169-195 | `2*+3` fails at the `+`, position 3 |
| Examples.EmptyBracketsExample | app/src/main/java/com/example/calculator/parser/SyntacticAnalyzer.kt:169-195 | `()` fails at the `)`, position 2 |
| Examples.LoneBracketExample | app/src/main/java/com/example/calculator/parser/SyntacticAnalyzer.kt:180-182 | `(` reads past the end of the lexeme list (index 2) |
| Examples.TrailingBracketOpenExample | app/src/main/java/com/example/calculator/parser/SyntacticAnalyzer.kt:150-152 | `3(` reads past the end of the lexeme list (index 3) |
| Examples.UnclosedBracketExample | app/src/main/java/com/example/calculator/parser/SyntacticAnalyzer.kt:180-189 | `(2+3` fails at the EOF lexeme, position 5 |
| Examples.UnclosedImplicitGroupExample | app/src/main/java/com/example/calculator/parser/SyntacticAnalyzer.kt:150-159 | `3(2+3` fails at the EOF lexeme, position 6 |
| Examples.SpacedExample | app/src/main/java/com/example/calculator/parser/SyntacticAnalyzer.kt:63 | `2 + 3*4` is 14: spaces between lexemes are skipped |
| Examples.TrailingBracketExample | app/src/main/java/com/example/calculator/parser/SyntacticAnalyzer.kt:100-108 | `2)3` is 2 |
| Examples.TrailingNumberExample | app/src/main/java/com/example/calculator/parser/SyntacticAnalyzer.kt:100-108 | `2 3` is 2 |
| Examples.BlankExamples | app/src/main/java/com/example/calculator/parser/SyntacticAnalyzer.kt:110-114 | the empty string and `   ` are 0 |
| Examples.UnknownCharacterExample | app/src/main/java/com/example/calculator/parser/SyntacticAnalyzer.kt:82-87 | `2&3` fails naming `&` at position 1 |
| Examples.TabExample | app/src/main/java/com/example/calculator/parser/SyntacticAnalyzer.kt:63-87 | a tab is not skipped like a space: `2<tab>3` fails naming the tab at position 1 |
| Examples.DivisionSignExample | app/src/main/java/com/example/calculator/parser/SyntacticAnalyzer.kt:62-63 | `÷` and `/` both lex to DIV; a space lexes to nothing |
| Examples.NumberRunExample | app/src/main/java/com/example/calculator/parser/SyntacticAnalyzer.kt:65-81 | `1.2.3e` is one NUMBER lexeme |
| Examples.NumberRunEndsExample | app/src/main/java/com/example/calculator/parser/SyntacticAnalyzer.kt:65-81 | `12+3` lexes to `12`, `+`, `3`, EOF |
| Examples.PointLiteralExample | app/src/main/java/com/example/calculator/parser/SyntacticAnalyzer.kt:179 | `2.5` converts to 2.5 |
| Examples.LeadingPointLiteralExample | app/src/main/java/com/example/calculator/parser/SyntacticAnalyzer.kt:179 | `.5` converts to 0.5 |
| Examples.TrailingPointLiteralExample | app/src/main/java/com/example/calculator/parser/SyntacticAnalyzer.kt:179 | `5.` converts to 5 |
| Examples.TwoPointsExample | app/src/main/java/com/example/calculator/parser/SyntacticAnalyzer.kt:179 | `1.2.3` does not convert |
| Examples.ExponentExamples | app/src/main/java/com/example/calculator/parser/SyntacticAnalyzer.kt:179 | `1e3` converts to 1000; `5e` and `e5` do not convert |
| Examples.PointExponentExamples | app/src/main/java/com/example/calculator/parser/SyntacticAnalyzer.kt:179 | `2.5E3` converts to 2500; `.e5` does not convert |
| Examples.RejectedLiteralExamples | app/src/main/java/com/example/calculator/parser/SyntacticAnalyzer.kt:179 | `1.2.3e` (the NUMBER lexeme of `1.2.3e`), `1.2.3.4`, `2.5e` and `1e2e3` do not convert |

## Behaviour of the code worth knowing

- **Collapsing to an integer.** `calculateResult` compares the result with `toLong()`, which truncates
  toward zero. So `3 - 1e-13` stays a Double although it is within `1e-12` of 3
  (`Evaluator.CollapseJustBelow`), while `-3 - 1e-13` becomes the Long -3
  (`Evaluator.CollapseJustBelowNegative`). `toLong()` saturates, and the saturated `Long.MAX_VALUE`
  widens back to 2^63, so the value 2^63 comes back as the Long 2^63 - 1
  (`Evaluator.CollapseSaturated`).
- **The lexer's error.** The lexer throws the same `UnexpectedLexeme` exception as the parser, for
  the first character it does not know. The model has one error constructor, which carries the
  character and its 0-based index.
- **Trailing lexemes.** `calculateResult` never checks that the cursor reached EOF, so input after a
  complete expression is ignored: `2)3` and `2 3` give 2 (`CalculatorProofs.CalculateLexed`).

## Left out

- Floating-point arithmetic. Values are unbounded reals, so rounding, overflow to infinity and
  underflow are not modelled. The `toLong()` saturation is modelled, and so is the widening of the
  saturated `Long.MAX_VALUE` back to 2^63. Every other Long the comparison meets is the truncation
  of a double, so it widens back exactly.
- Evaluator.Collapse: does not promise that a Long result lies within `1e-12` of the value. From
  `Long.MAX_VALUE` on, the comparison is with 2^63, so the value 2^63 gives the Long 2^63 - 1, as
  in the source.
- Evaluator.CollapseWhole: stated for whole numbers below `Long.MAX_VALUE`. 2^63 - 1 is not a
  double, so the source never sees it; the reals around it compare with 2^63
  (`Evaluator.CollapseSaturated`).
- Evaluator.CollapseJustAbove: stated for whole numbers below `Long.MAX_VALUE`, for the same
  reason.
- Lexer.LexFailsAt: a Dafny `char` is a whole Unicode character, while the source walks the input by
  UTF-16 code units. For a rejected character outside the Basic Multilingual Plane, such as an emoji,
  the source's error text names only its high surrogate; the model's names the whole character. The
  position agrees, because every character before the first rejected one is accepted, and every
  accepted character, `÷` included, is one code unit long.
- Lexer.LowerCase: maps only the ASCII capitals. No other character's lower-case form is `e`, so
  the number-character test is exact.
- Division by zero. A division by zero becomes the distinct `ZeroDivided` value, and
  `calculateResult` reports it as the `DivisionByZero` error. The platform instead gives an infinity
  or NaN and returns it as a Double. Dafny's reals have no infinity, NaN or signed zero. Two things
  follow:
  - Evaluation still continues past a division by zero, so every later grammar error is reported as
    in the source.
  - Inputs whose result on the platform would be finite again, such as `1/(1/0)` = 0, are reported as
    `DivisionByZero` by the model.
- Literals.ParseLiteral: the model covers only `toDouble` on the texts a NUMBER lexeme can hold (digits, `.`, `e`,
  `E`). A literal whose value overflows to infinity or underflows to zero on the platform converts
  to its exact real value here.
- Exception messages. An error carries the offending text and position, not the formatted message
  string.
- `Lexeme.toString` is a debugging aid that is not used by the evaluator.
- `LexemeBuffer.back` and `getPosition` have no members of their own. `back` is the grammar function
  returning the index of the lexeme it stepped back over. `getPosition` is the position carried by
  an unexpected-lexeme error.
- Stack depth. Deeply nested brackets overflow the platform's call stack; the model has no bound.
- The user interface in `MainActivity.kt` and how it catches and displays exceptions.

=== FILE: calculator_proofs.dfy ===
/** End-to-end properties of `calculateResult`: on the text of any
    well-formed expression it returns the expression's value, collapsed to a
    Long when it is whole; what follows a complete expression is ignored;
    blank input is 0. */
module CalculatorProofs {
  import opened Results
  import opened Lexer
  import opened Evaluator
  import opened Syntax
  import opened ParserProofs
  import opened TokenProofs

  /** The result the reference semantics gives for a tree's value: literal
      errors as they are, a division by zero as `DivisionByZero`, and a
      number collapsed as `calculateResult` does. */
  function Outcome(v: Result<Value>): Result<Number> {
    if v.Err? then Err(v.error)
    else if v.value.ZeroDivided? then Err(DivisionByZero)
    else Ok(Collapse(v.value.r))
  }

  /** The calculator evaluates the text of every well-formed expression to
      the expression's value. */
  lemma CalculateRendered(s: SumExpr)
    requires WellFormedSum(s)
    ensures CalculateResult(Spell(RenderSum(s))) == Outcome(EvalSum(s))
  {
    hide Expression, PlusMinus, PlusMinusLoop, MultiplyDivision, MultiplyDivisionLoop, Factor, LexicalAnalyze;
    RenderSumLexable(s);
    LexRoundTrip(RenderSum(s));
    ExpressionParses(s, [EofLexeme]);
  }

  /** Lexemes after a complete expression are never read: a NUMBER or a `)`
      that cannot continue it leaves the result unchanged. */
  lemma CalculateIgnoresTrailing(s: SumExpr, rest: seq<Lexeme>)
    requires WellFormedSum(s)
    requires Lexable(RenderSum(s) + rest)
    requires |rest| > 0 && rest[0].token in {Number, ClosingBracket}
    ensures CalculateResult(Spell(RenderSum(s) + rest)) == Outcome(EvalSum(s))
  {
    hide Expression, PlusMinus, PlusMinusLoop, MultiplyDivision, MultiplyDivisionLoop, Factor, LexicalAnalyze;
    LexRoundTrip(RenderSum(s) + rest);
    ExpressionParses(s, rest + [EofLexeme]);
    assert RenderSum(s) + rest + [EofLexeme] == RenderSum(s) + (rest + [EofLexeme]);
  }

  /** The calculator on any input that lexes to the lexemes of a
      well-formed tree followed by a NUMBER, a `)` or EOF, up to the
      spelling of operators: the tree's outcome. This covers spaces between
      lexemes, '÷' in place of '/', and any lexemes after the expression. */
  lemma CalculateLexed(input: string, s: SumExpr, rest: seq<Lexeme>)
    requires WellFormedSum(s)
    requires |rest| > 0 && rest[0].token in {Number, ClosingBracket, Eof}
    requires LexicalAnalyze(input).Ok? && SameTokens(RenderSum(s) + rest, LexicalAnalyze(input).value)
    ensures CalculateResult(input) == Outcome(EvalSum(s))
  {
    hide Expression, PlusMinus, PlusMinusLoop, MultiplyDivision, MultiplyDivisionLoop, Factor, LexicalAnalyze;
    ExpressionParses(s, rest);
    ExpressionSameTokens(RenderSum(s) + rest, LexicalAnalyze(input).value, 0);
  }

  /** Empty or all-space input evaluates to the Long 0. */
  lemma BlankIsZero(input: string)
    requires Blank(input)
    ensures CalculateResult(input) == Ok(LongValue(0))
  {
    BlankLexesToEof(input);
    CollapseWhole(0);
  }
}

=== FILE: evaluator.dfy ===
/** The recursive-descent evaluator: `expression`, `plusMinus`,
    `multiplyDivision` and `factor` over a shared lexeme cursor, and the
    entry point `calculateResult`.

    The cursor (`LexemeBuffer`) is an index into an immutable lexeme list:
    `next` fetches the lexeme at the index and advances it, `back` steps it
    back by one. Every grammar function takes the index and returns the
    value it computed together with the index it leaves the cursor at. A
    loop that fetches a lexeme it does not want and steps back is modelled by
    returning the index of that lexeme. */
module Evaluator {
  import opened Results
  import opened Lexer
  import opened Literals

  /** The value of a (sub-)expression. Reals stand for doubles; a value
      computed from a division by zero is `ZeroDivided`, since the
      infinities and NaN the platform would produce have no real
      counterpart. Evaluation carries on through such a value, as the
      platform does, so later grammar errors are still reported. */
  datatype Value = Real(r: real) | ZeroDivided

  datatype Operator = Add | Subtract | Multiply | Divide

  /** A successful grammar step: the value and the new cursor index. */
  datatype Step = Step(value: Value, pos: nat)

  function Apply(op: Operator, a: Value, b: Value): (v: Value)
    ensures v.Real? <==> a.Real? && b.Real? && !(op == Divide && b.r == 0.0)
  {
    if a.ZeroDivided? || b.ZeroDivided? then ZeroDivided
    else
      match op
      case Add => Real(a.r + b.r)
      case Subtract => Real(a.r - b.r)
      case Multiply => Real(a.r * b.r)
      case Divide => if b.r == 0.0 then ZeroDivided else Real(a.r / b.r)
  }

  /** The factor's sign: the source multiplies the factor's value by -1.0
      after a leading '-' and by 1.0 otherwise. */
  function Signed(negated: bool, v: Value): (r: Value)
    ensures r.Real? <==> v.Real?
    ensures r.Real? ==> r.r == (if negated then -1.0 else 1.0) * v.r
  {
    if negated && v.Real? then Real(-v.r) else v
  }

  /** `LexemeBuffer.next`: the lexeme under the cursor; reading at the end
      of the list is an index-out-of-bounds failure. */
  function Next(ls: seq<Lexeme>, pos: nat): (r: Result<Lexeme>)
    ensures r.Ok? <==> pos < |ls|
    ensures r.Ok? ==> r.value == ls[pos]
    ensures r.Err? ==> r.error == IndexOutOfBounds(pos)
  {
    if pos < |ls| then Ok(ls[pos]) else Err(IndexOutOfBounds(pos))
  }

  /** Tokens on which `plusMinus` stops and steps back. */
  predicate EndsSum(t: Token) {
    t != Plus && t != Minus
  }

  /** Tokens on which `multiplyDivision` stops and steps back. */
  predicate EndsProduct(t: Token) {
    t != Mul && t != Div && t != OpenBracket
  }

  /** `expression`: an EOF lexeme is consumed and yields 0; otherwise the
      cursor is stepped back and a sum is parsed. */
  function Expression(ls: seq<Lexeme>, pos: nat): (r: Result<Step>)
    requires pos <= |ls|
    ensures r.Ok? ==> pos < r.value.pos <= |ls|
    ensures pos < |ls| && ls[pos].token == Eof ==> r == Ok(Step(Real(0.0), pos + 1))
    decreases |ls| - pos, 3
  {
    var l :- Next(ls, pos);
    if l.token == Eof then Ok(Step(Real(0.0), pos + 1))
    else PlusMinus(ls, pos)
  }

  /** `plusMinus`: a product followed by the `+`/`-` loop. It leaves the
      cursor on the first lexeme that is neither `+` nor `-`. */
  function PlusMinus(ls: seq<Lexeme>, pos: nat): (r: Result<Step>)
    requires pos <= |ls|
    ensures r.Ok? ==> pos < r.value.pos < |ls| && EndsSum(ls[r.value.pos].token)
    decreases |ls| - pos, 2
  {
    var first :- MultiplyDivision(ls, pos);
    PlusMinusLoop(ls, first.pos, first.value)
  }

  /** The loop of `plusMinus` with the running result `acc`: fold each
      following product into it, left to right. */
  function PlusMinusLoop(ls: seq<Lexeme>, pos: nat, acc: Value): (r: Result<Step>)
    requires pos <= |ls|
    ensures r.Ok? ==> pos <= r.value.pos < |ls| && EndsSum(ls[r.value.pos].token)
    ensures pos < |ls| && EndsSum(ls[pos].token) ==> r == Ok(Step(acc, pos))
    decreases |ls| - pos, 2
  {
    var l :- Next(ls, pos);
    match l.token
    case Plus =>
      var rhs :- MultiplyDivision(ls, pos + 1);
      PlusMinusLoop(ls, rhs.pos, Apply(Add, acc, rhs.value))
    case Minus =>
      var rhs :- MultiplyDivision(ls, pos + 1);
      PlusMinusLoop(ls, rhs.pos, Apply(Subtract, acc, rhs.value))
    case _ => Ok(Step(acc, pos))
  }

  /** `multiplyDivision`: a factor followed by the `*`, `/` and
      implicit-multiplication loop. It leaves the cursor on the first lexeme
      that is none of `*`, `/` and `(`. */
  function MultiplyDivision(ls: seq<Lexeme>, pos: nat): (r: Result<Step>)
    requires pos <= |ls|
    ensures r.Ok? ==> pos < r.value.pos < |ls| && EndsProduct(ls[r.value.pos].token)
    decreases |ls| - pos, 1
  {
    var first :- Factor(ls, pos);
    MultiplyDivisionLoop(ls, first.pos, first.value)
  }

  /** The loop of `multiplyDivision` with the running result `acc`. A `(`
      multiplies by a whole bracketed expression, which must be closed. */
  function MultiplyDivisionLoop(ls: seq<Lexeme>, pos: nat, acc: Value): (r: Result<Step>)
    requires pos <= |ls|
    ensures r.Ok? ==> pos <= r.value.pos < |ls| && EndsProduct(ls[r.value.pos].token)
    ensures pos < |ls| && EndsProduct(ls[pos].token) ==> r == Ok(Step(acc, pos))
    decreases |ls| - pos, 1
  {
    var l :- Next(ls, pos);
    match l.token
    case Mul =>
      var rhs :- Factor(ls, pos + 1);
      MultiplyDivisionLoop(ls, rhs.pos, Apply(Multiply, acc, rhs.value))
    case Div =>
      var rhs :- Factor(ls, pos + 1);
      MultiplyDivisionLoop(ls, rhs.pos, Apply(Divide, acc, rhs.value))
    case OpenBracket =>
      var inner :- Expression(ls, pos + 1);
      var close :- Next(ls, inner.pos);
      if close.token != ClosingBracket then Err(UnexpectedLexeme(close.text, inner.pos + 1))
      else MultiplyDivisionLoop(ls, inner.pos + 1, Apply(Multiply, acc, inner.value))
    case _ => Ok(Step(acc, pos))
  }

  /** `factor`: at most one leading `-`, then a NUMBER or a bracketed
      expression. Anything else is an unexpected lexeme, reported with the
      cursor just past it; in particular a second `-` is rejected. */
  function Factor(ls: seq<Lexeme>, pos: nat): (r: Result<Step>)
    requires pos <= |ls|
    ensures r.Ok? ==> pos < r.value.pos <= |ls|
    ensures r.Ok? ==>
      || ls[pos].token in {Number, OpenBracket}
      || (ls[pos].token == Minus && pos + 1 < |ls| && ls[pos + 1].token in {Number, OpenBracket})
    ensures pos + 1 < |ls| && ls[pos].token == Minus && ls[pos + 1].token !in {Number, OpenBracket} ==>
      r == Err(UnexpectedLexeme(ls[pos + 1].text, pos + 2))
    ensures pos < |ls| && ls[pos].token !in {Minus, Number, OpenBracket} ==>
      r == Err(UnexpectedLexeme(ls[pos].text, pos + 1))
    decreases |ls| - pos, 0
  {
    var first :- Next(ls, pos);
    var negated := first.token == Minus;
    var at := if negated then pos + 1 else pos;
    var l :- Next(ls, at);
    match l.token
    case Number =>
      var x := ParseLiteral(l.text);
      if x.None? then Err(BadLiteral(l.text))
      else Ok(Step(Signed(negated, Real(x.value)), at + 1))
    case OpenBracket =>
      var inner :- Expression(ls, at + 1);
      var close :- Next(ls, inner.pos);
      if close.token != ClosingBracket then Err(UnexpectedLexeme(close.text, inner.pos + 1))
      else Ok(Step(Signed(negated, inner.value), inner.pos + 1))
    case _ => Err(UnexpectedLexeme(l.text, at + 1))
  }

  /** The tolerance below which a result counts as whole. */
  const Epsilon: real := 0.000000000001

  const LongMin: int := -0x8000_0000_0000_0000
  const LongMax: int := 0x7FFF_FFFF_FFFF_FFFF

  function Abs(x: real): real {
    if x < 0.0 then -x else x
  }

  /** Truncation toward zero. */
  function Truncate(x: real): (n: int)
    ensures 0.0 <= x ==> n as real <= x < n as real + 1.0
    ensures x <= 0.0 ==> n as real - 1.0 < x <= n as real
  {
    if x >= 0.0 then x.Floor else -((-x).Floor)
  }

  /** `Double.toLong`: truncation toward zero, saturated to the range of a
      64-bit signed integer. */
  function ToLong(x: real): (n: int)
    ensures LongMin <= n <= LongMax
    ensures LongMin <= Truncate(x) <= LongMax ==> n == Truncate(x)
    ensures Truncate(x) > LongMax ==> n == LongMax
    ensures Truncate(x) < LongMin ==> n == LongMin
  {
    var t := Truncate(x);
    if t < LongMin then LongMin else if t > LongMax then LongMax else t
  }

  /** 2^63, the double nearest to `Long.MAX_VALUE`. */
  const TwoTo63: real := 9223372036854775808.0

  /** A Long widened back to a double, as `result - result.toLong()` does.
      A Long obtained by truncating a double is itself a double, and so
      converts exactly, except `Long.MAX_VALUE` from a saturated
      conversion: 2^63 - 1 has no double, and rounds up to 2^63. */
  function LongToDouble(n: int): (x: real)
    requires LongMin <= n <= LongMax
    ensures n < LongMax ==> x == n as real
    ensures n == LongMax ==> x == n as real + 1.0
  {
    if n == LongMax then TwoTo63 else n as real
  }

  /** The `Number` that `calculateResult` returns: a `Long` or a `Double`. */
  datatype Number = LongValue(n: int) | DoubleValue(x: real)

  /** The result of `calculateResult` for the double `x`: the Long
      `x.toLong()` when `x` differs from it, widened back to a double, by
      less than Epsilon; `x` itself otherwise. Below 2^63 - 1 that compares
      `x` with its truncation; from there on the truncation saturates, and
      `x` is compared with 2^63. */
  function Collapse(x: real): (r: Number)
    ensures r.LongValue? ==> r.n == ToLong(x)
    ensures LongMin <= Truncate(x) < LongMax ==>
      (r.LongValue? <==> Abs(x - Truncate(x) as real) < Epsilon)
    ensures Truncate(x) >= LongMax ==> (r.LongValue? <==> Abs(x - TwoTo63) < Epsilon)
    ensures Truncate(x) < LongMin ==> r.DoubleValue?
    ensures r.DoubleValue? ==> r.x == x
  {
    var n := ToLong(x);
    if Abs(x - LongToDouble(n)) < Epsilon then LongValue(n) else DoubleValue(x)
  }

  /** A whole number below `Long.MAX_VALUE` comes back as that Long. */
  lemma CollapseWhole(n: int)
    requires LongMin <= n < LongMax
    ensures Collapse(n as real) == LongValue(n)
  {
    assert Truncate(n as real) == n;
  }

  /** Less than Epsilon above a whole number, the result is that number as
      a Long. */
  lemma CollapseJustAbove(n: int, d: real)
    requires 0 <= n < LongMax && 0.0 <= d < Epsilon
    ensures Collapse(n as real + d) == LongValue(n)
  {
    assert Truncate(n as real + d) == n;
  }

  /** Less than Epsilon below a positive whole number, the result stays a
      Double: the value is truncated toward zero, not rounded, before it is
      compared with the whole number. */
  lemma CollapseJustBelow(n: int, d: real)
    requires 1 <= n <= LongMax && 0.0 < d < Epsilon
    ensures Collapse(n as real - d) == DoubleValue(n as real - d)
  {
    assert Truncate(n as real - d) == n - 1;
  }

  /** The mirror image below zero: less than Epsilon below a whole number
      that is not positive, truncation toward zero lands on that number, and
      the result is that number as a Long. */
  lemma CollapseJustBelowNegative(n: int, d: real)
    requires LongMin <= n <= 0 && 0.0 <= d < Epsilon
    ensures Collapse(n as real - d) == LongValue(n)
  {
    assert Truncate(n as real - d) == n;
  }

  /** Less than Epsilon above a negative whole number, truncation moves to
      the next number toward zero, and the result stays a Double. */
  lemma CollapseJustAboveNegative(n: int, d: real)
    requires LongMin <= n <= -1 && 0.0 < d < Epsilon
    ensures Collapse(n as real + d) == DoubleValue(n as real + d)
  {
    assert Truncate(n as real + d) == n + 1;
  }

  /** 2^63 is a double but not a Long: `toLong` saturates it to
      `Long.MAX_VALUE`, which widens back to 2^63, so the result is the Long
      2^63 - 1. */
  lemma CollapseSaturated()
    ensures Collapse(TwoTo63) == LongValue(LongMax)
  {
    assert Truncate(TwoTo63) == LongMax + 1;
  }

  /** `calculateResult`: lex the input, evaluate one expression from the
      first lexeme, and collapse the value. Lexing errors come first; the
      cursor is never required to have reached EOF, so lexemes after a
      complete expression are ignored. */
  function CalculateResult(input: string): (r: Result<Number>)
    ensures LexicalAnalyze(input).Err? ==> r == Err(LexicalAnalyze(input).error)
    ensures r.Ok? && r.value.LongValue? ==> LongMin <= r.value.n <= LongMax
  {
    var ls :- LexicalAnalyze(input);
    var s :- Expression(ls, 0);
    match s.value
    case ZeroDivided => Err(DivisionByZero)
    case Real(x) => Ok(Collapse(x))
  }
}

=== FILE: examples.dfy ===
/** Worked inputs for `calculateResult`, each derived from the general
    theorems: precedence, left folds, implicit multiplication, unary minus,
    collapsing, trailing input, blank input and the error cases. */
module Examples {
  import opened Results
  import opened Lexer
  import opened Literals
  import opened Evaluator
  import opened Syntax
  import opened ParserProofs
  import opened TokenProofs
  import opened CalculatorProofs

  function Num(t: string): FactorExpr {
    Literal(false, t)
  }

  function Atom(t: string): ProductExpr {
    ProductOf(Num(t))
  }

  /** The literals the examples use. */
  lemma SmallLiterals()
    ensures ParseLiteral("0") == Some(0.0) && ParseLiteral("1") == Some(1.0)
    ensures ParseLiteral("2") == Some(2.0) && ParseLiteral("3") == Some(3.0)
    ensures ParseLiteral("4") == Some(4.0) && ParseLiteral("5") == Some(5.0)
    ensures ParseLiteral("8") == Some(8.0) && ParseLiteral("10") == Some(10.0)
  {
    hide ParseLiteral, Fraction, Scale, ParseMantissa;
    DigitsLiteral("0");
    DigitsLiteral("1");
    DigitsLiteral("2");
    DigitsLiteral("3");
    DigitsLiteral("4");
    DigitsLiteral("5");
    DigitsLiteral("8");
    DigitsLiteral("10");
  }

  /** The calculator's result on a text made of the lexemes of a
      well-formed tree is the tree's outcome. */
  lemma Calculates(e: SumExpr, ls: seq<Lexeme>, text: string, v: Result<Number>)
    requires WellFormedSum(e) && RenderSum(e) == ls && Spell(ls) == text
    requires Outcome(EvalSum(e)) == v
    ensures CalculateResult(text) == v
  {
    CalculateRendered(e);
  }

  /** Multiplication binds tighter than addition: 2+3*4 is 14. */
  function PrecedenceTree(): SumExpr {
    Additive(SumOf(Atom("2")), Add, Multiplicative(Atom("3"), Multiply, Num("4")))
  }

  lemma PrecedenceTreeRendered()
    ensures WellFormedSum(PrecedenceTree())
    ensures RenderSum(PrecedenceTree()) == [Lexeme(Number, "2"), Lexeme(Plus, "+"), Lexeme(Number, "3"), Lexeme(Mul, "*"), Lexeme(Number, "4")]
  {
  }

  lemma PrecedenceTreeValue()
    ensures EvalSum(PrecedenceTree()) == Ok(Real(14.0))
  {
    SmallLiterals();
    hide ParseLiteral, Fraction, Scale, DigitsValue, ParseMantissa;
    assert EvalSum(SumOf(Atom("2"))) == Ok(Real(2.0));
    assert EvalProduct(Multiplicative(Atom("3"), Multiply, Num("4"))) == Ok(Real(12.0));
  }

  lemma PrecedenceExample()
    ensures CalculateResult("2+3*4") == Ok(LongValue(14))
  {
    hide CalculateResult, LexicalAnalyze, Scan, ParseLiteral, Fraction, Scale, DigitsValue, RenderSum, WellFormedSum;
    PrecedenceTreeRendered();
    assert Spell([Lexeme(Number, "2"), Lexeme(Plus, "+"), Lexeme(Number, "3"), Lexeme(Mul, "*"), Lexeme(Number, "4")]) == "2+3*4";
    PrecedenceTreeValue();
    CollapseWhole(14);
    Calculates(PrecedenceTree(), [Lexeme(Number, "2"), Lexeme(Plus, "+"), Lexeme(Number, "3"), Lexeme(Mul, "*"), Lexeme(Number, "4")], "2+3*4", Ok(LongValue(14)));
  }

  /** Subtraction folds to the left: 10-2-3 is (10-2)-3 = 5, not 10-(2-3). */
  function LeftFoldTree(): SumExpr {
    Additive(Additive(SumOf(Atom("10")), Subtract, Atom("2")), Subtract, Atom("3"))
  }

  lemma LeftFoldTreeRendered()
    ensures WellFormedSum(LeftFoldTree())
    ensures RenderSum(LeftFoldTree()) == [Lexeme(Number, "10"), Lexeme(Minus, "-"), Lexeme(Number, "2"), Lexeme(Minus, "-"), Lexeme(Number, "3")]
  {
  }

  lemma LeftFoldExample()
    ensures CalculateResult("10-2-3") == Ok(LongValue(5))
  {
    hide CalculateResult, LexicalAnalyze, Scan, ParseLiteral, Fraction, Scale, DigitsValue, RenderSum, WellFormedSum;
    LeftFoldTreeRendered();
    assert Spell([Lexeme(Number, "10"), Lexeme(Minus, "-"), Lexeme(Number, "2"), Lexeme(Minus, "-"), Lexeme(Number, "3")]) == "10-2-3";
    assert EvalSum(LeftFoldTree()) == Ok(Real(5.0)) by {
      SmallLiterals();
    }
    CollapseWhole(5);
    Calculates(LeftFoldTree(), [Lexeme(Number, "10"), Lexeme(Minus, "-"), Lexeme(Number, "2"), Lexeme(Minus, "-"), Lexeme(Number, "3")], "10-2-3", Ok(LongValue(5)));
  }

  /** Division folds to the left too: 8/4/2 is (8/4)/2 = 1. */
  function DivisionFoldTree(): SumExpr {
    SumOf(Multiplicative(Multiplicative(Atom("8"), Divide, Num("4")), Divide, Num("2")))
  }

  lemma DivisionFoldTreeRendered()
    ensures WellFormedSum(DivisionFoldTree())
    ensures RenderSum(DivisionFoldTree()) == [Lexeme(Number, "8"), Lexeme(Div, "/"), Lexeme(Number, "4"), Lexeme(Div, "/"), Lexeme(Number, "2")]
  {
  }

  lemma DivisionFoldExample()
    ensures CalculateResult("8/4/2") == Ok(LongValue(1))
  {
    hide CalculateResult, LexicalAnalyze, Scan, ParseLiteral, Fraction, Scale, DigitsValue, RenderSum, WellFormedSum;
    DivisionFoldTreeRendered();
    assert Spell([Lexeme(Number, "8"), Lexeme(Div, "/"), Lexeme(Number, "4"), Lexeme(Div, "/"), Lexeme(Number, "2")]) == "8/4/2";
    assert EvalSum(DivisionFoldTree()) == Ok(Real(1.0)) by {
      SmallLiterals();
    }
    CollapseWhole(1);
    Calculates(DivisionFoldTree(), [Lexeme(Number, "8"), Lexeme(Div, "/"), Lexeme(Number, "4"), Lexeme(Div, "/"), Lexeme(Number, "2")], "8/4/2", Ok(LongValue(1)));
  }

  /** The division sign divides like '/': 8÷4÷2 is 1 too. */
  function DivisionSignLexemes(): seq<Lexeme> {
    [Lexeme(Number, "8"), Lexeme(Div, "÷"), Lexeme(Number, "4"), Lexeme(Div, "÷"), Lexeme(Number, "2")]
  }

  lemma DivisionSignLexable()
    ensures Lexable(DivisionSignLexemes()) && Spell(DivisionSignLexemes()) == "8÷4÷2"
  {
  }

  lemma DivisionSignLexed()
    ensures LexicalAnalyze("8÷4÷2") == Ok(DivisionSignLexemes() + [EofLexeme])
    ensures SameTokens(RenderSum(DivisionFoldTree()) + [EofLexeme], DivisionSignLexemes() + [EofLexeme])
  {
    hide LexicalAnalyze, Scan;
    DivisionSignLexable();
    hide Lexable, Spell;
    LexRoundTrip(DivisionSignLexemes());
    DivisionFoldTreeRendered();
  }

  lemma DivisionSignFoldExample()
    ensures CalculateResult("8÷4÷2") == Ok(LongValue(1))
  {
    hide CalculateResult, LexicalAnalyze, Scan, ParseLiteral, Fraction, Scale, DigitsValue, RenderSum, WellFormedSum, SameTokens;
    DivisionSignLexed();
    DivisionFoldTreeRendered();
    assert EvalSum(DivisionFoldTree()) == Ok(Real(1.0)) by {
      SmallLiterals();
    }
    CollapseWhole(1);
    CalculateLexed("8÷4÷2", DivisionFoldTree(), [EofLexeme]);
  }

  /** A bracket directly after a factor multiplies: 3(4-1) is 9. */
  function ImplicitMultiplicationTree(): SumExpr {
    SumOf(Juxtaposed(Atom("3"), Additive(SumOf(Atom("4")), Subtract, Atom("1"))))
  }

  lemma ImplicitMultiplicationTreeRendered()
    ensures WellFormedSum(ImplicitMultiplicationTree())
    ensures RenderSum(ImplicitMultiplicationTree()) == [Lexeme(Number, "3"), Lexeme(OpenBracket, "("), Lexeme(Number, "4"), Lexeme(Minus, "-"), Lexeme(Number, "1"), Lexeme(ClosingBracket, ")")]
  {
  }

  lemma ImplicitMultiplicationExample()
    ensures CalculateResult("3(4-1)") == Ok(LongValue(9))
  {
    hide CalculateResult, LexicalAnalyze, Scan, ParseLiteral, Fraction, Scale, DigitsValue, RenderSum, WellFormedSum;
    ImplicitMultiplicationTreeRendered();
    assert Spell([Lexeme(Number, "3"), Lexeme(OpenBracket, "("), Lexeme(Number, "4"), Lexeme(Minus, "-"), Lexeme(Number, "1"), Lexeme(ClosingBracket, ")")]) == "3(4-1)";
    assert EvalSum(ImplicitMultiplicationTree()) == Ok(Real(9.0)) by {
      SmallLiterals();
    }
    CollapseWhole(9);
    Calculates(ImplicitMultiplicationTree(), [Lexeme(Number, "3"), Lexeme(OpenBracket, "("), Lexeme(Number, "4"), Lexeme(Minus, "-"), Lexeme(Number, "1"), Lexeme(ClosingBracket, ")")], "3(4-1)", Ok(LongValue(9)));
  }

  /** Brackets override precedence: (2+3)*4 is 20. */
  function BracketTree(): SumExpr {
    SumOf(Multiplicative(ProductOf(Group(false, Additive(SumOf(Atom("2")), Add, Atom("3")))), Multiply, Num("4")))
  }

  lemma BracketTreeRendered()
    ensures WellFormedSum(BracketTree())
    ensures RenderSum(BracketTree()) == [Lexeme(OpenBracket, "("), Lexeme(Number, "2"), Lexeme(Plus, "+"), Lexeme(Number, "3"), Lexeme(ClosingBracket, ")"), Lexeme(Mul, "*"), Lexeme(Number, "4")]
  {
  }

  lemma BracketTreeValue()
    ensures EvalSum(BracketTree()) == Ok(Real(20.0))
  {
    SmallLiterals();
    hide ParseLiteral, Fraction, Scale, DigitsValue, ParseMantissa;
    var inner := Additive(SumOf(Atom("2")), Add, Atom("3"));
    assert EvalSum(inner) == Ok(Real(5.0));
    assert EvalProduct(ProductOf(Group(false, inner))) == Ok(Real(5.0));
  }

  lemma BracketExample()
    ensures CalculateResult("(2+3)*4") == Ok(LongValue(20))
  {
    hide CalculateResult, LexicalAnalyze, Scan, ParseLiteral, Fraction, Scale, DigitsValue, RenderSum, WellFormedSum;
    BracketTreeRendered();
    assert Spell([Lexeme(OpenBracket, "("), Lexeme(Number, "2"), Lexeme(Plus, "+"), Lexeme(Number, "3"), Lexeme(ClosingBracket, ")"), Lexeme(Mul, "*"), Lexeme(Number, "4")]) == "(2+3)*4";
    BracketTreeValue();
    CollapseWhole(20);
    Calculates(BracketTree(), [Lexeme(OpenBracket, "("), Lexeme(Number, "2"), Lexeme(Plus, "+"), Lexeme(Number, "3"), Lexeme(ClosingBracket, ")"), Lexeme(Mul, "*"), Lexeme(Number, "4")], "(2+3)*4", Ok(LongValue(20)));
  }

  /** A leading minus negates its factor: -5+3 is -2. */
  function UnaryMinusTree(): SumExpr {
    Additive(SumOf(ProductOf(Literal(true, "5"))), Add, Atom("3"))
  }

  lemma UnaryMinusTreeRendered()
    ensures WellFormedSum(UnaryMinusTree())
    ensures RenderSum(UnaryMinusTree()) == [Lexeme(Minus, "-"), Lexeme(Number, "5"), Lexeme(Plus, "+"), Lexeme(Number, "3")]
  {
  }

  lemma UnaryMinusExample()
    ensures CalculateResult("-5+3") == Ok(LongValue(-2))
  {
    hide CalculateResult, LexicalAnalyze, Scan, ParseLiteral, Fraction, Scale, DigitsValue, RenderSum, WellFormedSum;
    UnaryMinusTreeRendered();
    assert Spell([Lexeme(Minus, "-"), Lexeme(Number, "5"), Lexeme(Plus, "+"), Lexeme(Number, "3")]) == "-5+3";
    assert EvalSum(UnaryMinusTree()) == Ok(Real(-2.0)) by {
      SmallLiterals();
    }
    CollapseWhole(-2);
    Calculates(UnaryMinusTree(), [Lexeme(Minus, "-"), Lexeme(Number, "5"), Lexeme(Plus, "+"), Lexeme(Number, "3")], "-5+3", Ok(LongValue(-2)));
  }

  /** A result that is not whole stays a Double: 5/2 is 2.5. */
  function FractionTree(): SumExpr {
    SumOf(Multiplicative(Atom("5"), Divide, Num("2")))
  }

  lemma FractionTreeRendered()
    ensures WellFormedSum(FractionTree())
    ensures RenderSum(FractionTree()) == [Lexeme(Number, "5"), Lexeme(Div, "/"), Lexeme(Number, "2")]
  {
  }

  lemma FractionExample()
    ensures CalculateResult("5/2") == Ok(DoubleValue(2.5))
  {
    hide CalculateResult, LexicalAnalyze, Scan, ParseLiteral, Fraction, Scale, DigitsValue, RenderSum, WellFormedSum;
    FractionTreeRendered();
    assert Spell([Lexeme(Number, "5"), Lexeme(Div, "/"), Lexeme(Number, "2")]) == "5/2";
    assert EvalSum(FractionTree()) == Ok(Real(2.5)) by {
      SmallLiterals();
    }
    assert ToLong(2.5) == 2;
    Calculates(FractionTree(), [Lexeme(Number, "5"), Lexeme(Div, "/"), Lexeme(Number, "2")], "5/2", Ok(DoubleValue(2.5)));
  }

  /** Dividing by zero is an error of its own. */
  function DivisionByZeroTree(): SumExpr {
    SumOf(Multiplicative(Atom("1"), Divide, Num("0")))
  }

  lemma DivisionByZeroTreeRendered()
    ensures WellFormedSum(DivisionByZeroTree())
    ensures RenderSum(DivisionByZeroTree()) == [Lexeme(Number, "1"), Lexeme(Div, "/"), Lexeme(Number, "0")]
  {
  }

  lemma DivisionByZeroExample()
    ensures CalculateResult("1/0") == Err(DivisionByZero)
  {
    hide CalculateResult, LexicalAnalyze, Scan, ParseLiteral, Fraction, Scale, DigitsValue, RenderSum, WellFormedSum;
    DivisionByZeroTreeRendered();
    assert Spell([Lexeme(Number, "1"), Lexeme(Div, "/"), Lexeme(Number, "0")]) == "1/0";
    assert EvalSum(DivisionByZeroTree()) == Ok(ZeroDivided) by {
      SmallLiterals();
    }
    Calculates(DivisionByZeroTree(), [Lexeme(Number, "1"), Lexeme(Div, "/"), Lexeme(Number, "0")], "1/0", Err(DivisionByZero));
  }

  /** A NUMBER lexeme that does not convert is reported with its text. */
  function BadLiteralTree(): SumExpr {
    Additive(SumOf(Atom("1")), Add, Atom("2e"))
  }

  lemma BadLiteralTreeRendered()
    ensures WellFormedSum(BadLiteralTree())
    ensures RenderSum(BadLiteralTree()) == [Lexeme(Number, "1"), Lexeme(Plus, "+"), Lexeme(Number, "2e")]
  {
  }

  lemma BadLiteralExample()
    ensures CalculateResult("1+2e") == Err(BadLiteral("2e"))
  {
    hide CalculateResult, LexicalAnalyze, Scan, ParseLiteral, Fraction, Scale, DigitsValue, RenderSum, WellFormedSum;
    BadLiteralTreeRendered();
    assert Spell([Lexeme(Number, "1"), Lexeme(Plus, "+"), Lexeme(Number, "2e")]) == "1+2e";
    assert EvalSum(BadLiteralTree()) == Err(BadLiteral("2e")) by {
      SmallLiterals();
      BadExponentLiteral("2", 'e', "");
      assert "2" + ['e'] + "" == "2e";
    }
    Calculates(BadLiteralTree(), [Lexeme(Number, "1"), Lexeme(Plus, "+"), Lexeme(Number, "2e")], "1+2e", Err(BadLiteral("2e")));
  }

  /** A `)` after a complete expression ends it; the rest is never read. */
  lemma TrailingBracketExample()
    ensures CalculateResult("2)3") == Ok(LongValue(2))
  {
    hide CalculateResult, LexicalAnalyze, Scan, ParseLiteral, Fraction, Scale, DigitsValue;
    var e := SumOf(Atom("2"));
    var rest := [Lexeme(ClosingBracket, ")"), Lexeme(Number, "3")];
    assert RenderSum(e) + rest == [Lexeme(Number, "2"), Lexeme(ClosingBracket, ")"), Lexeme(Number, "3")];
    assert Spell(RenderSum(e) + rest) == "2)3";
    assert EvalSum(e) == Ok(Real(2.0)) by {
      SmallLiterals();
    }
    CalculateIgnoresTrailing(e, rest);
    CollapseWhole(2);
  }

  /** Two numbers separated by a space: the second is never read. */
  lemma TrailingNumberExample()
    ensures CalculateResult("2 3") == Ok(LongValue(2))
  {
    hide Expression, PlusMinus, PlusMinusLoop, MultiplyDivision, MultiplyDivisionLoop, Factor, ParseLiteral, Fraction, Scale, DigitsValue;
    var ls := [Lexeme(Number, "2"), Lexeme(Number, "3"), EofLexeme];
    assert LexicalAnalyze("2 3") == Ok(ls) by {
      hide Scan;
      assert RunLength("2 3") == 1 && RunLength("3") == 1;
      assert "2 3"[1..] == " 3" && " 3"[1..] == "3" && "3"[1..] == "";
      assert "2 3"[..1] == "2" && "3"[..1] == "3";
      ScanOnEnd("", 3);
      ScanOnNumber("3", 2);
      assert [Lexeme(Number, "3")] + [EofLexeme] == [Lexeme(Number, "3"), EofLexeme];
      assert Scan("3", 2) == Ok([Lexeme(Number, "3"), EofLexeme]);
      ScanOnSpace(" 3", 1);
      assert Scan(" 3", 1) == Ok([Lexeme(Number, "3"), EofLexeme]);
      ScanOnNumber("2 3", 0);
      assert [Lexeme(Number, "2")] + [Lexeme(Number, "3"), EofLexeme] == ls;
    }
    var e := SumOf(Atom("2"));
    assert RenderSum(e) == [Lexeme(Number, "2")];
    assert ls == RenderSum(e) + [Lexeme(Number, "3"), EofLexeme];
    assert EvalSum(e) == Ok(Real(2.0)) by {
      SmallLiterals();
    }
    ExpressionParses(e, [Lexeme(Number, "3"), EofLexeme]);
    CollapseWhole(2);
  }

  /** Spaces between lexemes are skipped: 2 + 3*4 is 14, as 2+3*4 is. */
  function SpacedTail(): seq<Lexeme> {
    [Lexeme(Number, "3"), Lexeme(Mul, "*"), Lexeme(Number, "4"), EofLexeme]
  }

  lemma SpacedTailScanned()
    ensures Scan("3*4", 4) == Ok(SpacedTail())
  {
    var ls := [Lexeme(Number, "3"), Lexeme(Mul, "*"), Lexeme(Number, "4")];
    assert Lexable(ls) && Spell(ls) == "3*4";
    hide Scan, Spell, Lexable;
    ScanRoundTrip(ls, 4);
    assert ls + [EofLexeme] == SpacedTail();
  }

  lemma SpacedScanned()
    ensures Scan("2 + 3*4", 0) == Ok([Lexeme(Number, "2"), Lexeme(Plus, "+")] + SpacedTail())
  {
    hide Scan, SpacedTail;
    SpacedTailScanned();
    assert " 3*4"[1..] == "3*4";
    ScanOnSpace(" 3*4", 3);
    assert "+ 3*4"[1..] == " 3*4";
    ScanOnOperator("+ 3*4", 2);
    assert Scan("+ 3*4", 2) == Ok([Lexeme(Plus, "+")] + SpacedTail());
    assert " + 3*4"[1..] == "+ 3*4";
    ScanOnSpace(" + 3*4", 1);
    assert RunLength("2 + 3*4") == 1 && "2 + 3*4"[..1] == "2" && "2 + 3*4"[1..] == " + 3*4";
    ScanOnNumber("2 + 3*4", 0);
    assert [Lexeme(Number, "2")] + ([Lexeme(Plus, "+")] + SpacedTail()) == [Lexeme(Number, "2"), Lexeme(Plus, "+")] + SpacedTail();
  }

  lemma SpacedLexed()
    ensures LexicalAnalyze("2 + 3*4") == Ok(RenderSum(PrecedenceTree()) + [EofLexeme])
  {
    hide Scan, RenderSum, WellFormedSum;
    SpacedScanned();
    PrecedenceTreeRendered();
    assert [Lexeme(Number, "2"), Lexeme(Plus, "+")] + SpacedTail() == RenderSum(PrecedenceTree()) + [EofLexeme];
  }

  lemma SpacedExample()
    ensures CalculateResult("2 + 3*4") == Ok(LongValue(14))
  {
    hide CalculateResult, LexicalAnalyze, Scan, ParseLiteral, Fraction, Scale, DigitsValue, RenderSum, WellFormedSum;
    SpacedLexed();
    PrecedenceTreeRendered();
    PrecedenceTreeValue();
    CollapseWhole(14);
    var ls := RenderSum(PrecedenceTree()) + [EofLexeme];
    assert SameTokens(ls, ls);
    hide SameTokens, EvalSum;
    CalculateLexed("2 + 3*4", PrecedenceTree(), [EofLexeme]);
  }

  /** The calculator fails on a text made of lexable lexemes exactly as
      `expression` fails on them. */
  lemma Fails(ls: seq<Lexeme>, text: string, e: Error)
    requires Lexable(ls) && Spell(ls) == text
    requires Expression(ls + [EofLexeme], 0) == Err(e)
    ensures CalculateResult(text) == Err(e)
  {
    hide Expression;
    LexRoundTrip(ls);
  }

  /** A factor takes at most one minus: --5 fails at the second one. */
  lemma DoubleMinusExample()
    ensures CalculateResult("--5") == Err(UnexpectedLexeme("-", 2))
  {
    hide CalculateResult, LexicalAnalyze, Scan, ParseLiteral, Expression, PlusMinus, MultiplyDivision;
    var ls := [Lexeme(Minus, "-"), Lexeme(Minus, "-"), Lexeme(Number, "5")];
    assert ls + [EofLexeme] == [Lexeme(Minus, "-"), Lexeme(Minus, "-"), Lexeme(Number, "5"), EofLexeme];
    assert Spell(ls) == "--5";
    LeadingFactorFails(ls + [EofLexeme], 0);
    Fails(ls, "--5", UnexpectedLexeme("-", 2));
  }

  /** A `+` cannot start a factor: 2*+3 fails at the `+`. */
  lemma SignedOperandExample()
    ensures CalculateResult("2*+3") == Err(UnexpectedLexeme("+", 3))
  {
    hide CalculateResult, LexicalAnalyze, Scan, ParseLiteral, Expression, PlusMinus, PlusMinusLoop, MultiplyDivision, Factor;
    var ls := [Lexeme(Number, "2"), Lexeme(Mul, "*"), Lexeme(Plus, "+"), Lexeme(Number, "3")];
    var all := ls + [EofLexeme];
    assert all == [Lexeme(Number, "2"), Lexeme(Mul, "*"), Lexeme(Plus, "+"), Lexeme(Number, "3"), EofLexeme];
    assert Spell(ls) == "2*+3";
    DigitsLiteral("2");
    FactorOnNumber(all, 0, false, "2");
    assert Factor(all, 2) == Err(UnexpectedLexeme("+", 3));
    assert MultiplyDivisionLoop(all, 1, Real(2.0)) == Err(UnexpectedLexeme("+", 3));
    MultiplyDivisionUnfold(all, 0);
    PlusMinusUnfold(all, 0);
    ExpressionUnfold(all, 0);
    Fails(ls, "2*+3", UnexpectedLexeme("+", 3));
  }

  /** Empty brackets: the inner expression cannot start with `)`. */
  lemma EmptyBracketsExample()
    ensures CalculateResult("()") == Err(UnexpectedLexeme(")", 2))
  {
    hide CalculateResult, LexicalAnalyze, Scan, ParseLiteral, Expression, PlusMinus, PlusMinusLoop, MultiplyDivision, MultiplyDivisionLoop;
    var ls := [Lexeme(OpenBracket, "("), Lexeme(ClosingBracket, ")")];
    var all := ls + [EofLexeme];
    assert all == [Lexeme(OpenBracket, "("), Lexeme(ClosingBracket, ")"), EofLexeme];
    assert Spell(ls) == "()";
    LeadingFactorFails(all, 1);
    assert Factor(all, 0) == Err(UnexpectedLexeme(")", 2));
    LeadingFactorFails(all, 0);
    Fails(ls, "()", UnexpectedLexeme(")", 2));
  }

  /** A lone `(`: the inner `expression` consumes EOF, and fetching the
      closing bracket reads past the end of the lexeme list. */
  lemma LoneBracketExample()
    ensures CalculateResult("(") == Err(IndexOutOfBounds(2))
  {
    hide CalculateResult, LexicalAnalyze, Scan, ParseLiteral, Expression, PlusMinus, PlusMinusLoop, MultiplyDivision, MultiplyDivisionLoop;
    var ls := [Lexeme(OpenBracket, "(")];
    var all := ls + [EofLexeme];
    assert all == [Lexeme(OpenBracket, "("), EofLexeme];
    assert Spell(ls) == "(";
    assert Expression(all, 1) == Ok(Step(Real(0.0), 2));
    assert Factor(all, 0) == Err(IndexOutOfBounds(2));
    LeadingFactorFails(all, 0);
    Fails(ls, "(", IndexOutOfBounds(2));
  }

  /** The same read past the end after implicit multiplication: 3( fails
      fetching the closing bracket. */
  lemma TrailingBracketOpenExample()
    ensures CalculateResult("3(") == Err(IndexOutOfBounds(3))
  {
    hide CalculateResult, LexicalAnalyze, Scan, ParseLiteral, Expression, PlusMinus, PlusMinusLoop, MultiplyDivision, Factor;
    var ls := [Lexeme(Number, "3"), Lexeme(OpenBracket, "(")];
    var all := ls + [EofLexeme];
    assert all == [Lexeme(Number, "3"), Lexeme(OpenBracket, "("), EofLexeme];
    assert Spell(ls) == "3(";
    DigitsLiteral("3");
    FactorOnNumber(all, 0, false, "3");
    assert Expression(all, 2) == Ok(Step(Real(0.0), 3));
    assert MultiplyDivisionLoop(all, 1, Real(3.0)) == Err(IndexOutOfBounds(3));
    MultiplyDivisionUnfold(all, 0);
    PlusMinusUnfold(all, 0);
    ExpressionUnfold(all, 0);
    Fails(ls, "3(", IndexOutOfBounds(3));
  }

  /** An unclosed bracket: (2+3 reports the EOF lexeme, whose text is
      empty, with the cursor past it. */
  function UnclosedTree(): SumExpr {
    Additive(SumOf(Atom("2")), Add, Atom("3"))
  }

  lemma UnclosedTreeRendered()
    ensures WellFormedSum(UnclosedTree())
    ensures RenderSum(UnclosedTree()) == [Lexeme(Number, "2"), Lexeme(Plus, "+"), Lexeme(Number, "3")]
  {
  }

  lemma UnclosedBracketExample()
    ensures CalculateResult("(2+3") == Err(UnexpectedLexeme("", 5))
  {
    hide CalculateResult, LexicalAnalyze, Scan, ParseLiteral, Expression, RenderSum, WellFormedSum;
    UnclosedTreeRendered();
    assert EvalSum(UnclosedTree()).Ok? by {
      SmallLiterals();
    }
    UnclosedGroupFails(UnclosedTree());
    var ls := [Lexeme(OpenBracket, "("), Lexeme(Number, "2"), Lexeme(Plus, "+"), Lexeme(Number, "3")];
    assert [OpenLexeme] + RenderSum(UnclosedTree()) + [EofLexeme] == ls + [EofLexeme];
    assert Spell(ls) == "(2+3";
    Fails(ls, "(2+3", UnexpectedLexeme("", 5));
  }

  /** The implicit multiplication misses its bracket too: 3(2+3 reports the
      EOF lexeme with the cursor past it. */
  function UnclosedImplicitLexemes(): seq<Lexeme> {
    [Lexeme(Number, "3"), Lexeme(OpenBracket, "("), Lexeme(Number, "2"), Lexeme(Plus, "+"), Lexeme(Number, "3")]
  }

  lemma UnclosedImplicitValues()
    ensures EvalProduct(Atom("3")).Ok? && EvalSum(UnclosedTree()).Ok?
  {
    SmallLiterals();
    hide ParseLiteral, Fraction, Scale, DigitsValue, ParseMantissa;
    assert EvalProduct(Atom("3")) == Ok(Real(3.0));
    assert EvalProduct(Atom("2")) == Ok(Real(2.0));
  }

  lemma UnclosedImplicitRendered()
    ensures WellFormedProduct(Atom("3")) && WellFormedSum(UnclosedTree())
    ensures RenderProduct(Atom("3")) + [OpenLexeme] + RenderSum(UnclosedTree()) + [EofLexeme]
         == UnclosedImplicitLexemes() + [EofLexeme]
    ensures |RenderProduct(Atom("3"))| + |RenderSum(UnclosedTree())| + 2 == 6
  {
    assert WellFormedProduct(Atom("3")) && RenderProduct(Atom("3")) == [Lexeme(Number, "3")] by {
      DigitsLiteral("3");
    }
    UnclosedTreeRendered();
    hide RenderSum, RenderProduct, WellFormedProduct, WellFormedSum, ParseLiteral;
    assert [Lexeme(Number, "3")] + [OpenLexeme] + [Lexeme(Number, "2"), Lexeme(Plus, "+"), Lexeme(Number, "3")] + [EofLexeme]
        == UnclosedImplicitLexemes() + [EofLexeme];
  }

  lemma UnclosedImplicitSpelled()
    ensures Lexable(UnclosedImplicitLexemes()) && Spell(UnclosedImplicitLexemes()) == "3(2+3"
  {
  }

  lemma UnclosedImplicitGroupExample()
    ensures CalculateResult("3(2+3") == Err(UnexpectedLexeme("", 6))
  {
    hide CalculateResult, LexicalAnalyze, Scan, ParseLiteral, Expression, RenderSum, WellFormedSum;
    hide RenderProduct, WellFormedProduct, EvalSum, EvalProduct, Spell, Lexable, UnclosedImplicitLexemes, UnclosedTree;
    UnclosedImplicitValues();
    UnclosedImplicitRendered();
    JuxtaposedUnclosedFails(Atom("3"), UnclosedTree());
    UnclosedImplicitSpelled();
    Fails(UnclosedImplicitLexemes(), "3(2+3", UnexpectedLexeme("", 6));
  }

  /** Empty and all-space input are 0. */
  lemma BlankExamples()
    ensures CalculateResult("") == Ok(LongValue(0))
    ensures CalculateResult("   ") == Ok(LongValue(0))
  {
    BlankIsZero("");
    BlankIsZero("   ");
  }

  /** A character the lexer does not know fails the whole input, at its
      index. */
  lemma UnknownCharacterExample()
    ensures CalculateResult("2&3") == Err(UnexpectedLexeme("&", 1))
  {
    hide CalculateResult, LexicalAnalyze, Scan;
    assert Accepted('2') && !Accepted('&');
    LexFailsAt("2&3", 1);
  }

  /** A tab is not a space to the lexer: it is rejected like any other
      unknown character. */
  lemma TabExample()
    ensures CalculateResult("2\t3") == Err(UnexpectedLexeme("\t", 1))
  {
    hide CalculateResult, LexicalAnalyze, Scan;
    assert Accepted('2') && !Accepted('\t');
    LexFailsAt("2\t3", 1);
  }

  /** Both '/' and the division sign '÷' lex to DIV; a space lexes to
      nothing. */
  lemma DivisionSignExample()
    ensures LexicalAnalyze("÷") == Ok([Lexeme(Div, "÷"), EofLexeme])
    ensures LexicalAnalyze("/") == Ok([Lexeme(Div, "/"), EofLexeme])
    ensures LexicalAnalyze(" ") == Ok([EofLexeme])
  {
    LexRoundTrip([Lexeme(Div, "÷")]);
    assert Spell([Lexeme(Div, "÷")]) == "÷";
    assert [Lexeme(Div, "÷")] + [EofLexeme] == [Lexeme(Div, "÷"), EofLexeme];
    LexRoundTrip([Lexeme(Div, "/")]);
    assert Spell([Lexeme(Div, "/")]) == "/";
    assert [Lexeme(Div, "/")] + [EofLexeme] == [Lexeme(Div, "/"), EofLexeme];
    BlankLexesToEof(" ");
  }

  /** A NUMBER lexeme is a whole run of digits, '.', 'e' and 'E', even one
      that will not convert. */
  lemma NumberRunExample()
    ensures LexicalAnalyze("1.2.3e") == Ok([Lexeme(Number, "1.2.3e"), EofLexeme])
  {
    LexRoundTrip([Lexeme(Number, "1.2.3e")]);
    assert Spell([Lexeme(Number, "1.2.3e")]) == "1.2.3e";
    assert [Lexeme(Number, "1.2.3e")] + [EofLexeme] == [Lexeme(Number, "1.2.3e"), EofLexeme];
  }

  /** A run ends at the first character that cannot continue it. */
  lemma NumberRunEndsExample()
    ensures LexicalAnalyze("12+3") == Ok([Lexeme(Number, "12"), Lexeme(Plus, "+"), Lexeme(Number, "3"), EofLexeme])
  {
    hide Scan, LexicalAnalyze;
    LexRoundTrip([Lexeme(Number, "12"), Lexeme(Plus, "+"), Lexeme(Number, "3")]);
    assert Spell([Lexeme(Number, "12"), Lexeme(Plus, "+"), Lexeme(Number, "3")]) == "12+3";
    assert [Lexeme(Number, "12"), Lexeme(Plus, "+"), Lexeme(Number, "3")] + [EofLexeme]
        == [Lexeme(Number, "12"), Lexeme(Plus, "+"), Lexeme(Number, "3"), EofLexeme];
  }

  /** A point may sit between digits, lead them or trail them. */
  lemma PointLiteralExample()
    ensures ParseLiteral("2.5") == Some(2.5)
  {
    assert DigitsValue("25") as real / Pow10(1) as real == 2.5;
    hide ParseLiteral, Fraction, Scale, ParseMantissa, DigitsValue, Pow10, FirstExponentMark, FirstPoint;
    FractionLiteral(['2'], ['5']);
    assert ['2'] + ['.'] + ['5'] == ['2', '.', '5'];
    assert ['2'] + ['5'] == ['2', '5'];
  }

  lemma LeadingPointLiteralExample()
    ensures ParseLiteral(".5") == Some(0.5)
  {
    assert DigitsValue("5") as real / Pow10(1) as real == 0.5;
    hide ParseLiteral, Fraction, Scale, ParseMantissa, DigitsValue, Pow10, FirstExponentMark, FirstPoint;
    FractionLiteral([], ['5']);
    assert [] + ['.'] + ['5'] == ['.', '5'];
    assert [] + ['5'] == ['5'];
  }

  lemma TrailingPointLiteralExample()
    ensures ParseLiteral("5.") == Some(5.0)
  {
    assert DigitsValue("5") as real / Pow10(0) as real == 5.0;
    hide ParseLiteral, Fraction, Scale, ParseMantissa, DigitsValue, Pow10, FirstExponentMark, FirstPoint;
    FractionLiteral(['5'], []);
    assert ['5'] + ['.'] + [] == ['5', '.'];
    assert ['5'] + [] == ['5'];
  }

  /** A second point is rejected. */
  lemma TwoPointsExample()
    ensures ParseLiteral("1.2.3") == None
  {
    TwoPointsLiteral("1", "2", "3");
    assert "1" + "." + "2" + "." + "3" == "1.2.3";
  }

  /** An exponent needs digits on both sides of the mark. */
  lemma ExponentExamples()
    ensures ParseLiteral("1e3") == Some(1000.0)
    ensures ParseLiteral("e5") == None
    ensures ParseLiteral("5e") == None
  {
    ExponentLiteral("1", 'e', "3");
    assert "1" + ['e'] + "3" == "1e3";
    assert Scale(1.0, 3) == 1000.0;
    BadExponentLiteral("", 'e', "5");
    assert "" + ['e'] + "5" == "e5";
    BadExponentLiteral("5", 'e', "");
    assert "5" + ['e'] + "" == "5e";
  }

  /** A point and an exponent together: the fraction is scaled. */
  lemma PointExponentExamples()
    ensures ParseLiteral("2.5E3") == Some(2500.0)
    ensures ParseLiteral(".e5") == None
  {
    assert Scale(Fraction(DigitsValue("25"), 1), DigitsValue("3")) == 2500.0;
    hide ParseLiteral, Fraction, Scale, ParseMantissa, DigitsValue, Pow10, FirstExponentMark, FirstPoint;
    PointExponentLiteral(['2'], ['5'], 'E', ['3']);
    assert ['2'] + ['.'] + ['5'] + ['E'] + ['3'] == ['2', '.', '5', 'E', '3'];
    assert ['2'] + ['5'] == ['2', '5'];
    PointExponentLiteral([], [], 'e', ['5']);
    assert [] + ['.'] + [] + ['e'] + ['5'] == ['.', 'e', '5'];
  }

  /** Rejected literals: a second point, even before an exponent mark
      (`1.2.3e` is the lexeme of `NumberRunExample`), and an exponent part
      that is empty or holds a non-digit. */
  lemma RejectedLiteralExamples()
    ensures ParseLiteral("1.2.3e") == None
    ensures ParseLiteral("1.2.3.4") == None
    ensures ParseLiteral("2.5e") == None
    ensures ParseLiteral("1e2e3") == None
  {
    hide ParseLiteral, Fraction, Scale, ParseMantissa, DigitsValue, Pow10, FirstPoint;
    TwoPointsLiteral("1", "2", "3e");
    assert "1" + "." + "2" + "." + "3e" == "1.2.3e";
    TwoPointsLiteral("1", "2", "3.4");
    assert "1" + "." + "2" + "." + "3.4" == "1.2.3.4";
    var t := ['2', '.', '5', 'e'];
    assert FirstExponentMark(t) == 3;
    ExponentTailLiteral(t);
    var u := ['1', 'e', '2', 'e', '3'];
    assert FirstExponentMark(u) == 1;
    assert !IsDigit(u[2..][1]);
    ExponentTailLiteral(u);
  }
}

=== FILE: lexer.dfy ===
/** The lexer of the calculator (`lexicalAnalyze`): it turns the input
    string into a list of lexemes that always ends in one EOF lexeme. */
module Lexer {
  import opened Results

  datatype Token =
    | Number
    | OpenBracket | ClosingBracket
    | Plus | Minus | Mul | Div
    | Eof

  datatype Lexeme = Lexeme(token: Token, text: string)

  const EofLexeme := Lexeme(Eof, "")

  predicate IsDigit(c: char) {
    '0' <= c <= '9'
  }

  /** `Char.lowercaseChar` on the ASCII capitals; every other character is
      left as it is. */
  function LowerCase(c: char): (l: char)
    ensures 'A' <= c <= 'Z' ==> l as int == c as int + 32
    ensures !('A' <= c <= 'Z') ==> l == c
  {
    if 'A' <= c <= 'Z' then (c as int + 32) as char else c
  }

  /** Characters a NUMBER lexeme is built from: digits, the point, and the
      characters whose lower-case form is 'e'. */
  predicate IsNumberChar(c: char)
    ensures IsNumberChar(c) <==> IsDigit(c) || c == '.' || LowerCase(c) == 'e'
  {
    IsDigit(c) || c == '.' || c == 'e' || c == 'E'
  }

  /** The token of a one-character lexeme; both '/' and the division sign
      '÷' are DIV. No such character is a space or a number character, so
      the order in which the lexer tries the three classes does not
      matter. */
  function OperatorToken(c: char): (r: Option<Token>)
    ensures r == Some(Div) <==> c == '/' || c == '÷'
    ensures r.Some? ==> r.value != Number && r.value != Eof
    ensures r.Some? ==> c != ' ' && !IsNumberChar(c)
  {
    match c
    case '(' => Some(OpenBracket)
    case ')' => Some(ClosingBracket)
    case '+' => Some(Plus)
    case '-' => Some(Minus)
    case '*' => Some(Mul)
    case '/' => Some(Div)
    case '÷' => Some(Div)
    case _ => None
  }

  /** Characters the lexer does not reject. */
  predicate Accepted(c: char) {
    c == ' ' || OperatorToken(c).Some? || IsNumberChar(c)
  }

  /** A lexeme the lexer can produce. */
  predicate ValidLexeme(l: Lexeme) {
    match l.token
    case Number => |l.text| > 0 && forall k :: 0 <= k < |l.text| ==> IsNumberChar(l.text[k])
    case Eof => l.text == ""
    case _ => |l.text| == 1 && OperatorToken(l.text[0]) == Some(l.token)
  }

  /** The shape of a successful lexer output: valid lexemes, no EOF except
      the last one, which is the EOF lexeme with empty text. */
  predicate WellTerminated(ls: seq<Lexeme>) {
    && |ls| > 0
    && ls[|ls| - 1] == EofLexeme
    && forall k :: 0 <= k < |ls| - 1 ==> ls[k].token != Eof && ValidLexeme(ls[k])
  }

  /** No NUMBER lexeme is directly followed by another one. */
  predicate Separated(ls: seq<Lexeme>) {
    forall k :: 0 <= k < |ls| - 1 ==> !(ls[k].token == Number && ls[k + 1].token == Number)
  }

  /** The texts of the lexemes, concatenated. */
  function Spell(ls: seq<Lexeme>): string {
    if |ls| == 0 then "" else ls[0].text + Spell(ls[1..])
  }

  /** The input with every space removed. */
  function WithoutSpaces(s: string): string {
    if |s| == 0 then ""
    else if s[0] == ' ' then WithoutSpaces(s[1..])
    else [s[0]] + WithoutSpaces(s[1..])
  }

  /** Length of the run of number characters at the start of `s`: the
      do-while loop that collects a NUMBER lexeme stops at the first
      character that cannot continue it, or at the end of the input. */
  function RunLength(s: string): (n: nat)
    ensures n <= |s|
    ensures forall k :: 0 <= k < n ==> IsNumberChar(s[k])
    ensures n < |s| ==> !IsNumberChar(s[n])
  {
    if |s| == 0 || !IsNumberChar(s[0]) then 0 else 1 + RunLength(s[1..])
  }

  /** A leading run of number characters survives space removal. */
  lemma {:induction false} WithoutSpacesAfterRun(s: string, n: nat)
    requires n <= |s| && forall k :: 0 <= k < n ==> IsNumberChar(s[k])
    ensures WithoutSpaces(s) == s[..n] + WithoutSpaces(s[n..])
  {
    if n > 0 {
      var t := s[1..];
      assert forall k :: 0 <= k < n - 1 ==> t[k] == s[k + 1];
      WithoutSpacesAfterRun(t, n - 1);
      assert t[n - 1..] == s[n..];
      assert [s[0]] + t[..n - 1] == s[..n];
      calc {
        WithoutSpaces(s);
        [s[0]] + WithoutSpaces(t);
        [s[0]] + (t[..n - 1] + WithoutSpaces(s[n..]));
        s[..n] + WithoutSpaces(s[n..]);
      }
    } else {
      assert s[n..] == s;
    }
  }

  /** Index of the first character the lexer rejects, or |s|. */
  function FirstRejected(s: string): (i: nat)
    ensures i <= |s|
    ensures i < |s| ==> !Accepted(s[i])
    ensures forall k :: 0 <= k < i ==> Accepted(s[k])
  {
    if |s| == 0 || !Accepted(s[0]) then 0 else 1 + FirstRejected(s[1..])
  }

  /** Skipping a prefix of accepted characters. */
  lemma {:induction false} FirstRejectedAfter(s: string, n: nat)
    requires n <= |s| && forall k :: 0 <= k < n ==> Accepted(s[k])
    ensures FirstRejected(s) == n + FirstRejected(s[n..])
  {
    if n > 0 {
      var t := s[1..];
      assert Accepted(s[0]);
      assert FirstRejected(s) == 1 + FirstRejected(t);
      forall k | 0 <= k < n - 1
        ensures Accepted(t[k])
      {
        assert t[k] == s[k + 1];
      }
      FirstRejectedAfter(t, n - 1);
      assert t[n - 1..] == s[n..];
    } else {
      assert s[n..] == s;
    }
  }

  /** Lexes `s`, a suffix of the input that starts at index `offset`. It
      fails exactly when some character is rejected, and then reports the
      first one with its index in the input. */
  function Scan(s: string, offset: nat): (r: Result<seq<Lexeme>>)
    ensures r.Ok? <==> FirstRejected(s) == |s|
    ensures r.Err? ==>
      FirstRejected(s) < |s| && r.error == UnexpectedLexeme([s[FirstRejected(s)]], offset + FirstRejected(s))
    decreases |s|
  {
    if |s| == 0 then
      Ok([EofLexeme])
    else if OperatorToken(s[0]).Some? then
      var rest :- Scan(s[1..], offset + 1);
      Ok([Lexeme(OperatorToken(s[0]).value, [s[0]])] + rest)
    else if s[0] == ' ' then
      Scan(s[1..], offset + 1)
    else if IsNumberChar(s[0]) then
      var n := RunLength(s);
      FirstRejectedAfter(s, n);
      var rest :- Scan(s[n..], offset + n);
      Ok([Lexeme(Number, s[..n])] + rest)
    else
      Err(UnexpectedLexeme([s[0]], offset))
  }

  lemma SpellNil()
    ensures Spell([]) == ""
  {
  }

  lemma SpellCons(l: Lexeme, rest: seq<Lexeme>)
    ensures Spell([l] + rest) == l.text + Spell(rest)
  {
    assert ([l] + rest)[1..] == rest;
  }

  /** The first lexeme of a successful scan is a NUMBER exactly when the
      first character is a number character. */
  lemma ScanFirstToken(s: string, offset: nat)
    requires Scan(s, offset).Ok?
    requires |s| > 0 && s[0] != ' '
    ensures Scan(s, offset).value[0].token == Number <==> IsNumberChar(s[0])
  {
  }

  /** `Scan` at the end of the input. */
  lemma ScanOnEnd(s: string, offset: nat)
    requires |s| == 0
    ensures Scan(s, offset) == Ok([EofLexeme])
  {
  }

  /** One step of `Scan` on an operator character. */
  lemma ScanOnOperator(s: string, offset: nat)
    requires |s| > 0 && OperatorToken(s[0]).Some?
    ensures Scan(s, offset).Ok? <==> Scan(s[1..], offset + 1).Ok?
    ensures Scan(s, offset).Ok? ==> Scan(s, offset).value == [Lexeme(OperatorToken(s[0]).value, [s[0]])] + Scan(s[1..], offset + 1).value
  {
  }

  /** One step of `Scan` on a space. */
  lemma ScanOnSpace(s: string, offset: nat)
    requires |s| > 0 && s[0] == ' '
    ensures Scan(s, offset) == Scan(s[1..], offset + 1)
  {
  }

  /** One step of `Scan` on a number character. */
  lemma ScanOnNumber(s: string, offset: nat)
    requires |s| > 0 && IsNumberChar(s[0])
    ensures Scan(s, offset).Ok? <==> Scan(s[RunLength(s)..], offset + RunLength(s)).Ok?
    ensures Scan(s, offset).Ok? ==> Scan(s, offset).value == [Lexeme(Number, s[..RunLength(s)])] + Scan(s[RunLength(s)..], offset + RunLength(s)).value
  {
  }

  /** A successful scan spells its input back without the spaces. */
  lemma {:induction false} ScanSpells(s: string, offset: nat)
    requires Scan(s, offset).Ok?
    ensures Spell(Scan(s, offset).value) == WithoutSpaces(s)
    decreases |s|
  {
    hide Scan, Spell, FirstRejected, RunLength;
    if |s| == 0 {
      ScanOnEnd(s, offset);
      SpellNil();
      SpellCons(EofLexeme, []);
      assert [EofLexeme] + [] == [EofLexeme];
    } else if OperatorToken(s[0]).Some? {
      ScanOnOperator(s, offset);
      ScanSpells(s[1..], offset + 1);
      SpellCons(Lexeme(OperatorToken(s[0]).value, [s[0]]), Scan(s[1..], offset + 1).value);
      assert s[0] != ' ';
    } else if s[0] == ' ' {
      ScanOnSpace(s, offset);
      ScanSpells(s[1..], offset + 1);
    } else {
      hide WithoutSpaces;
      ScanOnNumber(s, offset);
      var n := RunLength(s);
      ScanSpells(s[n..], offset + n);
      SpellCons(Lexeme(Number, s[..n]), Scan(s[n..], offset + n).value);
      WithoutSpacesAfterRun(s, n);
    }
  }

  /** Without spaces in the input, no two NUMBER lexemes are adjacent: each
      NUMBER lexeme is a maximal run of number characters. */
  lemma {:induction false} ScanSeparated(s: string, offset: nat)
    requires Scan(s, offset).Ok?
    requires forall k :: 0 <= k < |s| ==> s[k] != ' '
    ensures Separated(Scan(s, offset).value)
    decreases |s|
  {
    hide Scan;
    if |s| == 0 {
      ScanOnEnd(s, offset);
    } else if OperatorToken(s[0]).Some? {
      ScanOnOperator(s, offset);
      assert forall k :: 1 <= k < |s| ==> s[k] == s[1..][k - 1];
      ScanSeparated(s[1..], offset + 1);
      SeparatedCons(Lexeme(OperatorToken(s[0]).value, [s[0]]), Scan(s[1..], offset + 1).value);
    } else {
      ScanOnNumber(s, offset);
      var n := RunLength(s);
      var rest := Scan(s[n..], offset + n).value;
      assert forall k :: n <= k < |s| ==> s[k] == s[n..][k - n];
      ScanSeparated(s[n..], offset + n);
      if n < |s| {
        ScanFirstToken(s[n..], offset + n);
      } else {
        ScanOnEnd(s[n..], offset + n);
      }
      SeparatedCons(Lexeme(Number, s[..n]), rest);
    }
  }

  /** A successful scan ends in exactly one EOF lexeme, after valid
      lexemes. */
  lemma {:induction false} ScanTerminated(s: string, offset: nat)
    requires Scan(s, offset).Ok?
    ensures WellTerminated(Scan(s, offset).value)
    decreases |s|
  {
    hide Scan;
    if |s| == 0 {
      ScanOnEnd(s, offset);
    } else if OperatorToken(s[0]).Some? {
      ScanOnOperator(s, offset);
      ScanTerminated(s[1..], offset + 1);
      TerminatedCons(Lexeme(OperatorToken(s[0]).value, [s[0]]), Scan(s[1..], offset + 1).value);
    } else if s[0] == ' ' {
      ScanOnSpace(s, offset);
      ScanTerminated(s[1..], offset + 1);
    } else {
      ScanOnNumber(s, offset);
      var n := RunLength(s);
      ScanTerminated(s[n..], offset + n);
      TerminatedCons(Lexeme(Number, s[..n]), Scan(s[n..], offset + n).value);
    }
  }

  lemma TerminatedCons(l: Lexeme, rest: seq<Lexeme>)
    requires WellTerminated(rest) && l.token != Eof && ValidLexeme(l)
    ensures WellTerminated([l] + rest)
  {
    var ls := [l] + rest;
    forall k | 0 <= k < |ls| - 1
      ensures ls[k].token != Eof && ValidLexeme(ls[k])
    {
      if k > 0 {
        assert ls[k] == rest[k - 1];
      }
    }
  }

  lemma SeparatedCons(l: Lexeme, rest: seq<Lexeme>)
    requires Separated(rest)
    requires |rest| > 0 ==> !(l.token == Number && rest[0].token == Number)
    ensures Separated([l] + rest)
  {
    var ls := [l] + rest;
    forall k | 0 <= k < |ls| - 1
      ensures !(ls[k].token == Number && ls[k + 1].token == Number)
    {
      if k > 0 {
        assert ls[k] == rest[k - 1] && ls[k + 1] == rest[k];
      }
    }
  }

  /** Lexemes the lexer can produce before EOF, no two NUMBER lexemes
      adjacent. */
  predicate Lexable(ls: seq<Lexeme>) {
    && (forall k :: 0 <= k < |ls| ==> ls[k].token != Eof && ValidLexeme(ls[k]))
    && Separated(ls)
  }

  lemma LexableTail(ls: seq<Lexeme>)
    requires Lexable(ls) && |ls| > 0
    ensures Lexable(ls[1..])
  {
    var rest := ls[1..];
    assert forall k :: 0 <= k < |rest| ==> rest[k] == ls[k + 1];
  }

  /** No character both continues a number and forms a lexeme of its own. */
  lemma NumberCharIsNotOperator(c: char)
    requires IsNumberChar(c)
    ensures OperatorToken(c).None? && c != ' '
  {
  }

  /** The run of number characters at the start of `t + u` is `t` when `u`
      does not continue it. */
  lemma {:induction false} RunLengthOf(t: string, u: string)
    requires forall k :: 0 <= k < |t| ==> IsNumberChar(t[k])
    requires |u| > 0 ==> !IsNumberChar(u[0])
    ensures RunLength(t + u) == |t|
  {
    if |t| > 0 {
      assert (t + u)[0] == t[0];
      assert (t + u)[1..] == t[1..] + u;
      RunLengthOf(t[1..], u);
    } else {
      assert t + u == u;
    }
  }

  /** The spelling of lexable lexemes does not start with a number
      character unless the first lexeme is a NUMBER. */
  lemma SpellStart(ls: seq<Lexeme>)
    requires Lexable(ls) && |ls| > 0
    ensures |Spell(ls)| > 0 && Spell(ls)[0] == ls[0].text[0]
    ensures ls[0].token != Number ==> !IsNumberChar(Spell(ls)[0])
  {
    SpellCons(ls[0], ls[1..]);
    assert [ls[0]] + ls[1..] == ls;
    if ls[0].token != Number && IsNumberChar(ls[0].text[0]) {
      NumberCharIsNotOperator(ls[0].text[0]);
    }
  }

  /** Lexing the spelling of lexable lexemes gives them back, followed by
      the EOF lexeme. */
  lemma {:induction false} ScanRoundTrip(ls: seq<Lexeme>, offset: nat)
    requires Lexable(ls)
    ensures Scan(Spell(ls), offset) == Ok(ls + [EofLexeme])
    decreases |ls|
  {
    hide Scan, Spell, FirstRejected, RunLength, WithoutSpaces;
    var s := Spell(ls);
    if |ls| == 0 {
      SpellNil();
      assert ls == [] && ls + [EofLexeme] == [EofLexeme];
      ScanOnEnd(s, offset);
    } else {
      var l := ls[0];
      var rest := ls[1..];
      SpellCons(l, rest);
      assert [l] + rest == ls;
      assert s == l.text + Spell(rest);
      LexableTail(ls);
      SpellStart(ls);
      ScanRoundTrip(rest, offset + |l.text|);
      assert ls + [EofLexeme] == [l] + (rest + [EofLexeme]);
      if l.token == Number {
        if |rest| > 0 {
          assert rest[0] == ls[1];
          SpellStart(rest);
        } else {
          SpellNil();
          assert rest == [];
        }
        RunLengthOf(l.text, Spell(rest));
        assert s[..|l.text|] == l.text && s[|l.text|..] == Spell(rest);
        ScanOnNumber(s, offset);
      } else {
        assert ValidLexeme(l);
        assert l.text == [s[0]] && OperatorToken(s[0]) == Some(l.token);
        assert s[1..] == Spell(rest);
        ScanOnOperator(s, offset);
      }
    }
  }

  /** `lexicalAnalyze`: lexes the whole input. On success the list ends in
      exactly one EOF lexeme, its texts spell the input without its spaces,
      and every other lexeme is an operator character or a non-empty run of
      number characters. It fails exactly when some character is neither,
      and then names the first such character and its index. */
  function LexicalAnalyze(input: string): (r: Result<seq<Lexeme>>)
    ensures r.Ok? <==> forall k :: 0 <= k < |input| ==> Accepted(input[k])
    ensures r.Ok? ==> WellTerminated(r.value) && Spell(r.value) == WithoutSpaces(input)
    ensures r.Ok? && (forall k :: 0 <= k < |input| ==> input[k] != ' ') ==> Separated(r.value)
    ensures r.Err? ==>
      && r.error.UnexpectedLexeme?
      && 0 <= r.error.position < |input|
      && r.error.text == [input[r.error.position]]
      && !Accepted(input[r.error.position])
      && forall j :: 0 <= j < r.error.position ==> Accepted(input[j])
  {
    var r := Scan(input, 0);
    if r.Ok? then
      ScanTerminated(input, 0);
      ScanSpells(input, 0);
      if forall k :: 0 <= k < |input| ==> input[k] != ' ' then
        ScanSeparated(input, 0);
        r
      else r
    else r
  }

  /** Lexing fails at the first rejected character, naming it and its
      index, whatever follows it. */
  lemma LexFailsAt(input: string, i: nat)
    requires i < |input| && !Accepted(input[i])
    requires forall j :: 0 <= j < i ==> Accepted(input[j])
    ensures LexicalAnalyze(input) == Err(UnexpectedLexeme([input[i]], i))
  {
    hide LexicalAnalyze;
    var r := LexicalAnalyze(input);
    assert r.Err?;
    var p := r.error.position;
    // Every character before either index is accepted, and neither
    // character at them is, so neither index lies before the other.
    assert i <= p by {
      assert !Accepted(input[p]);
    }
    assert p <= i by {
      assert !Accepted(input[i]);
    }
  }

  /** Lexing is the inverse of spelling on lexable lexemes. */
  lemma LexRoundTrip(ls: seq<Lexeme>)
    requires Lexable(ls)
    ensures LexicalAnalyze(Spell(ls)) == Ok(ls + [EofLexeme])
  {
    ScanRoundTrip(ls, 0);
  }

  /** The input holds nothing but spaces (it may be empty). */
  predicate Blank(s: string) {
    forall k :: 0 <= k < |s| ==> s[k] == ' '
  }

  lemma {:induction false} ScanBlank(s: string, offset: nat)
    requires Blank(s)
    ensures Scan(s, offset) == Ok([EofLexeme])
    decreases |s|
  {
    hide Scan;
    if |s| == 0 {
      ScanOnEnd(s, offset);
    } else {
      ScanOnSpace(s, offset);
      assert forall k :: 0 <= k < |s| - 1 ==> s[1..][k] == s[k + 1];
      ScanBlank(s[1..], offset + 1);
    }
  }

  lemma {:induction false} BlankWithoutSpaces(s: string)
    requires WithoutSpaces(s) == ""
    ensures Blank(s)
    decreases |s|
  {
    if |s| > 0 {
      assert s[0] == ' ';
      BlankWithoutSpaces(s[1..]);
      assert forall k :: 1 <= k < |s| ==> s[k] == s[1..][k - 1];
    }
  }

  /** The input lexes to the EOF lexeme alone exactly when it is blank. */
  lemma BlankLexesToEof(input: string)
    ensures LexicalAnalyze(input) == Ok([EofLexeme]) <==> Blank(input)
  {
    if Blank(input) {
      ScanBlank(input, 0);
    }
    if LexicalAnalyze(input) == Ok([EofLexeme]) {
      SpellNil();
      SpellCons(EofLexeme, []);
      assert [EofLexeme] + [] == [EofLexeme];
      BlankWithoutSpaces(input);
    }
  }
}

=== FILE: literals.dfy ===
/** Conversion of a NUMBER lexeme's text to a number (`String.toDouble`).

    The lexer lets any run of digits, '.', 'e' and 'E' through, so the
    conversion is partial. Over that alphabet the platform's literal grammar
    is: a mantissa of digits with at most one '.', holding at least one
    digit, optionally followed by 'e' or 'E' and at least one exponent digit
    (the alphabet has no sign characters). The value is computed exactly as
    a real; the rounding to the nearest double is not modelled. */
module Literals {
  import opened Results
  import opened Lexer

  predicate AllDigits(s: string) {
    forall k :: 0 <= k < |s| ==> IsDigit(s[k])
  }

  /** The natural number written by a string of decimal digits. */
  function DigitsValue(s: string): nat
    requires AllDigits(s)
  {
    if |s| == 0 then 0
    else 10 * DigitsValue(s[..|s| - 1]) + (s[|s| - 1] as int - '0' as int)
  }

  function Pow10(n: nat): (p: nat)
    ensures p >= 1
  {
    if n == 0 then 1 else 10 * Pow10(n - 1)
  }

  /** Index of the first exponent mark, 'e' or 'E', in `s`, or |s|. */
  function FirstExponentMark(s: string): (i: nat)
    ensures i <= |s|
    ensures i < |s| ==> s[i] == 'e' || s[i] == 'E'
    ensures forall k :: 0 <= k < i ==> s[k] != 'e' && s[k] != 'E'
  {
    if |s| == 0 then 0
    else if s[0] == 'e' || s[0] == 'E' then 0
    else 1 + FirstExponentMark(s[1..])
  }

  /** Index of the first '.' in `s`, or |s|. */
  function FirstPoint(s: string): (i: nat)
    ensures i <= |s|
    ensures i < |s| ==> s[i] == '.'
    ensures forall k :: 0 <= k < i ==> s[k] != '.'
  {
    if |s| == 0 then 0
    else if s[0] == '.' then 0
    else 1 + FirstPoint(s[1..])
  }

  /** `digits / 10^places`: the value of a mantissa whose digits, read
      without the point, write `digits`, with `places` digits after it. */
  function Fraction(digits: nat, places: nat): (x: real)
    ensures x >= 0.0
    ensures places == 0 ==> x == digits as real
  {
    digits as real / Pow10(places) as real
  }

  /** `x * 10^e`. */
  function Scale(x: real, e: nat): (y: real)
    requires x >= 0.0
    ensures y >= 0.0
    ensures e == 0 ==> y == x
  {
    x * Pow10(e) as real
  }

  /** The value of a mantissa `digits[.digits]`, if it is one. */
  function ParseMantissa(m: string): (r: Option<real>)
    ensures r.Some? ==> r.value >= 0.0
  {
    var d := FirstPoint(m);
    var whole := m[..d];
    var fraction := if d < |m| then m[d + 1..] else "";
    if AllDigits(whole) && AllDigits(fraction) && |whole| + |fraction| > 0 then
      Some(Fraction(DigitsValue(whole + fraction), |fraction|))
    else
      None
  }

  /** `toDouble` on a literal: None when the platform would throw. */
  function ParseLiteral(t: string): (r: Option<real>)
    ensures r.Some? ==> r.value >= 0.0
  {
    var e := FirstExponentMark(t);
    var mantissa := ParseMantissa(t[..e]);
    if mantissa.None? then None
    else if e == |t| then mantissa
    else
      var exponent := t[e + 1..];
      if |exponent| > 0 && AllDigits(exponent) then
        Some(Scale(mantissa.value, DigitsValue(exponent)))
      else
        None
  }

  /** Without an exponent mark the literal is all mantissa. */
  lemma NoExponentMark(t: string)
    requires forall k :: 0 <= k < |t| ==> t[k] != 'e' && t[k] != 'E'
    ensures FirstExponentMark(t) == |t|
  {
  }

  /** The first '.' of `w + "." + f` when `w` is all digits. */
  lemma PointAfterDigits(w: string, f: string)
    requires AllDigits(w)
    ensures FirstPoint(w + "." + f) == |w|
  {
    var t := w + "." + f;
    assert t[|w|] == '.';
    forall k | 0 <= k < |w|
      ensures t[k] != '.'
    {
      assert t[k] == w[k];
    }
  }

  lemma NoPoint(t: string)
    requires forall k :: 0 <= k < |t| ==> t[k] != '.'
    ensures FirstPoint(t) == |t|
  {
  }

  /** A mantissa without a point is the integer its digits write. */
  lemma MantissaOfDigits(t: string)
    requires |t| > 0 && AllDigits(t)
    ensures ParseMantissa(t) == Some(DigitsValue(t) as real)
  {
    hide DigitsValue, Fraction;
    NoPoint(t);
    assert t[..|t|] == t && t + "" == t;
  }

  /** A plain string of digits converts to the integer it writes. */
  lemma DigitsLiteral(t: string)
    requires |t| > 0 && AllDigits(t)
    ensures ParseLiteral(t) == Some(DigitsValue(t) as real)
  {
    hide DigitsValue, Fraction, Scale, ParseMantissa;
    NoExponentMark(t);
    MantissaOfDigits(t);
    assert t[..|t|] == t;
  }

  /** A literal with a point: `w.f` is worth `wf / 10^|f|`, and at least
      one of `w` and `f` must hold a digit. */
  lemma FractionLiteral(w: string, f: string)
    requires AllDigits(w) && AllDigits(f)
    ensures ParseLiteral(w + "." + f) ==
      if |w| + |f| > 0 then Some(DigitsValue(w + f) as real / Pow10(|f|) as real) else None
  {
    hide DigitsValue, Scale;
    var t := w + "." + f;
    forall k | 0 <= k < |t|
      ensures t[k] != 'e' && t[k] != 'E'
    {
      if k < |w| {
        assert t[k] == w[k];
      } else if k > |w| {
        assert t[k] == f[k - |w| - 1];
      }
    }
    NoExponentMark(t);
    PointAfterDigits(w, f);
    assert t[..|t|] == t;
    assert t[..|w|] == w && t[|w| + 1..] == f;
  }

  /** A second decimal point makes the literal unconvertible, whatever
      follows it: the second point comes before any exponent mark. */
  lemma TwoPointsLiteral(a: string, b: string, c: string)
    requires AllDigits(a) && AllDigits(b)
    ensures ParseLiteral(a + "." + b + "." + c) == None
  {
    hide DigitsValue, Fraction, Scale;
    var t := a + "." + b + "." + c;
    var n := |a| + 1 + |b|;
    assert t[n] == '.';
    forall k | 0 <= k <= n
      ensures t[k] != 'e' && t[k] != 'E'
    {
      if k < |a| {
        assert t[k] == a[k];
      } else if |a| < k < n {
        assert t[k] == b[k - |a| - 1];
      }
    }
    var e := FirstExponentMark(t);
    assert n < e;
    var m := t[..e];
    var rest := m[|a| + 1..];
    assert m == a + "." + rest;
    PointAfterDigits(a, rest);
    assert rest[|b|] == '.';
  }

  /** The first exponent mark of `m + [mark] + x` when `m` is all digits. */
  lemma MarkAfterDigits(m: string, mark: char, x: string)
    requires AllDigits(m) && (mark == 'e' || mark == 'E')
    ensures FirstExponentMark(m + [mark] + x) == |m|
  {
    var t := m + [mark] + x;
    assert t[|m|] == mark;
    forall k | 0 <= k < |m|
      ensures t[k] != 'e' && t[k] != 'E'
    {
      assert t[k] == m[k];
    }
  }

  /** `m` followed by an exponent mark and the digits `x` is worth
      `m * 10^x`. */
  lemma ExponentLiteral(m: string, mark: char, x: string)
    requires |m| > 0 && AllDigits(m) && |x| > 0 && AllDigits(x)
    requires mark == 'e' || mark == 'E'
    ensures ParseLiteral(m + [mark] + x) == Some(Scale(DigitsValue(m) as real, DigitsValue(x)))
  {
    hide DigitsValue, Pow10, ParseMantissa, Fraction, Scale;
    var t := m + [mark] + x;
    MarkAfterDigits(m, mark, x);
    assert t[..|m|] == m && t[|m| + 1..] == x;
    MantissaOfDigits(m);
  }

  /** `w.f` followed by an exponent mark and the digits `x` is worth
      `wf / 10^|f| * 10^x`; as without the exponent, at least one of `w`
      and `f` must hold a digit. */
  lemma PointExponentLiteral(w: string, f: string, mark: char, x: string)
    requires AllDigits(w) && AllDigits(f) && |x| > 0 && AllDigits(x)
    requires mark == 'e' || mark == 'E'
    ensures ParseLiteral(w + "." + f + [mark] + x) ==
      if |w| + |f| > 0 then Some(Scale(Fraction(DigitsValue(w + f), |f|), DigitsValue(x))) else None
  {
    hide DigitsValue, Pow10, Fraction, Scale;
    var m := w + "." + f;
    var t := m + [mark] + x;
    assert t[|m|] == mark;
    forall k | 0 <= k < |m|
      ensures t[k] != 'e' && t[k] != 'E'
    {
      assert t[k] == m[k];
      if k < |w| {
        assert m[k] == w[k];
      } else if k > |w| {
        assert m[k] == f[k - |w| - 1];
      }
    }
    assert FirstExponentMark(t) == |m|;
    assert t[..|m|] == m && t[|m| + 1..] == x;
    PointAfterDigits(w, f);
    assert m[..|w|] == w && m[|w| + 1..] == f;
  }

  /** An exponent mark with nothing after it, or with no mantissa digit
      before it, makes the literal unconvertible. */
  lemma BadExponentLiteral(m: string, mark: char, x: string)
    requires AllDigits(m)
    requires mark == 'e' || mark == 'E'
    requires |m| == 0 || |x| == 0
    ensures ParseLiteral(m + [mark] + x) == None
  {
    hide DigitsValue, Fraction, Scale;
    var t := m + [mark] + x;
    MarkAfterDigits(m, mark, x);
    assert t[..|m|] == m && t[|m| + 1..] == x;
    if |m| == 0 {
      assert FirstPoint(m) == 0;
    }
  }

  /** Whatever the mantissa, the part after the first exponent mark must be
      a non-empty run of digits: `2.5e`, `1e2e3` and `1e2.3` do not
      convert. */
  lemma ExponentTailLiteral(t: string)
    requires FirstExponentMark(t) < |t|
    requires !AllDigits(t[FirstExponentMark(t) + 1..]) || FirstExponentMark(t) + 1 == |t|
    ensures ParseLiteral(t) == None
  {
    hide DigitsValue, Fraction, Scale, ParseMantissa;
  }

  /** The platform's mantissa over digits and '.', described by its
      characters: no other character, at most one point, at least one
      digit. */
  predicate MantissaShape(m: string) {
    && (forall k :: 0 <= k < |m| ==> IsDigit(m[k]) || m[k] == '.')
    && (forall i, j :: 0 <= i < j < |m| && m[i] == '.' ==> m[j] != '.')
    && (exists k :: 0 <= k < |m| && IsDigit(m[k]))
  }

  /** The platform's literal over the lexer's alphabet: a mantissa up to
      the first exponent mark, then, if there is a mark, at least one digit
      and nothing else. */
  predicate LiteralShape(t: string) {
    var e := FirstExponentMark(t);
    && MantissaShape(t[..e])
    && (e < |t| ==> e + 1 < |t| && forall k :: e < k < |t| ==> IsDigit(t[k]))
  }

  /** Splitting a mantissa at its first point converts exactly the
      mantissas of the platform's grammar. */
  lemma MantissaShapeIff(m: string)
    ensures ParseMantissa(m).Some? <==> MantissaShape(m)
  {
    hide DigitsValue, Fraction;
    var d := FirstPoint(m);
    var whole := m[..d];
    var fraction := if d < |m| then m[d + 1..] else "";
    if ParseMantissa(m).Some? {
      assert AllDigits(whole) && AllDigits(fraction) && |whole| + |fraction| > 0;
      forall k | 0 <= k < |m|
        ensures IsDigit(m[k]) || m[k] == '.'
      {
        if k < d {
          assert m[k] == whole[k];
        } else if k > d {
          assert m[k] == fraction[k - d - 1];
        }
      }
      forall i, j | 0 <= i < j < |m| && m[i] == '.'
        ensures m[j] != '.'
      {
        assert m[j] == fraction[j - d - 1];
      }
      if |whole| > 0 {
        assert IsDigit(m[0]) by { assert m[0] == whole[0]; }
      } else {
        assert IsDigit(m[d + 1]) by { assert m[d + 1] == fraction[0]; }
      }
    }
    if MantissaShape(m) {
      forall k | 0 <= k < |whole|
        ensures IsDigit(whole[k])
      {
        assert whole[k] == m[k];
      }
      if d < |m| {
        forall k | 0 <= k < |fraction|
          ensures IsDigit(fraction[k])
        {
          assert fraction[k] == m[d + 1 + k];
        }
      }
      var k :| 0 <= k < |m| && IsDigit(m[k]);
      if k > d {
        assert |fraction| > 0;
      }
    }
  }

  /** `ParseLiteral` converts exactly the literals of the platform's
      grammar over the lexer's alphabet, and throws on every other text. */
  lemma LiteralShapeIff(t: string)
    ensures ParseLiteral(t).Some? <==> LiteralShape(t)
  {
    hide DigitsValue, Fraction, Scale, ParseMantissa;
    var e := FirstExponentMark(t);
    MantissaShapeIff(t[..e]);
    if e < |t| {
      var x := t[e + 1..];
      if AllDigits(x) {
        forall k | e < k < |t|
          ensures IsDigit(t[k])
        {
          assert t[k] == x[k - e - 1];
        }
      }
      if forall k :: e < k < |t| ==> IsDigit(t[k]) {
        forall k | 0 <= k < |x|
          ensures IsDigit(x[k])
        {
          assert x[k] == t[e + 1 + k];
        }
      }
    }
  }
}

=== FILE: parser_proofs.dfy ===
/** The evaluator agrees with the reference semantics: on the lexemes that
    spell a well-formed tree it returns the tree's value (or the tree's
    literal error) and stops right after those lexemes. This is where
    precedence, left associativity and implicit multiplication are proved. */
module ParserProofs {
  import opened Results
  import opened Lexer
  import opened Literals
  import opened Evaluator
  import opened Syntax

  /** `r` occurs in `ls` starting at index `pos`. */
  predicate RenderedAt(ls: seq<Lexeme>, pos: nat, r: seq<Lexeme>) {
    pos + |r| <= |ls| && ls[pos..pos + |r|] == r
  }

  /** A value paired with the cursor index, or the error unchanged. */
  function Then(v: Result<Value>, pos: nat): Result<Step> {
    if v.Err? then Err(v.error)
    else Ok(Step(v.value, pos))
  }

  lemma RenderedAtSplit(ls: seq<Lexeme>, pos: nat, a: seq<Lexeme>, b: seq<Lexeme>)
    requires RenderedAt(ls, pos, a + b)
    ensures RenderedAt(ls, pos, a) && RenderedAt(ls, pos + |a|, b)
  {
    var whole := ls[pos..pos + |a| + |b|];
    assert whole[..|a|] == a;
    assert whole[|a|..] == b;
    assert ls[pos..pos + |a|] == whole[..|a|];
    assert ls[pos + |a|..pos + |a| + |b|] == whole[|a|..];
  }

  lemma RenderedAtHead(ls: seq<Lexeme>, pos: nat, r: seq<Lexeme>)
    requires RenderedAt(ls, pos, r) && |r| > 0
    ensures pos < |ls| && ls[pos] == r[0]
  {
    assert ls[pos..pos + |r|][0] == r[0];
  }

  /** One unfolding of `factor` on a NUMBER, with or without a sign. */
  lemma FactorOnNumber(ls: seq<Lexeme>, pos: nat, negated: bool, t: string)
    requires pos + (if negated then 1 else 0) < |ls|
    requires negated ==> ls[pos] == MinusLexeme
    requires ls[pos + (if negated then 1 else 0)] == Lexeme(Number, t)
    ensures Factor(ls, pos) == Then(EvalFactor(Literal(negated, t)), pos + (if negated then 2 else 1))
  {
    hide Expression, PlusMinus, PlusMinusLoop, MultiplyDivision, MultiplyDivisionLoop, ParseLiteral;
  }

  /** One unfolding of `factor` on a bracketed expression. */
  lemma FactorOnGroup(ls: seq<Lexeme>, pos: nat, negated: bool, inner: SumExpr, close: nat)
    requires pos + (if negated then 1 else 0) < |ls|
    requires negated ==> ls[pos] == MinusLexeme
    requires ls[pos + (if negated then 1 else 0)] == OpenLexeme
    requires close < |ls| && ls[close] == CloseLexeme
    requires Expression(ls, pos + (if negated then 2 else 1)) == Then(EvalSum(inner), close)
    ensures Factor(ls, pos) == Then(EvalFactor(Group(negated, inner)), close + 1)
  {
    hide Expression, PlusMinus, PlusMinusLoop, MultiplyDivision, MultiplyDivisionLoop, EvalSum, ParseLiteral;
  }

  /** One unfolding of `expression` on a lexeme other than EOF. */
  lemma ExpressionUnfold(ls: seq<Lexeme>, pos: nat)
    requires pos < |ls| && ls[pos].token != Eof
    ensures Expression(ls, pos) == PlusMinus(ls, pos)
  {
    hide PlusMinus, PlusMinusLoop, MultiplyDivision, MultiplyDivisionLoop, Factor, ParseLiteral;
  }

  /** `expression` on the lexemes of a well-formed sum followed by a NUMBER,
      a `)` or EOF returns the sum's value and leaves the cursor on that
      lexeme. */
  lemma {:induction false} ExpressionStops(s: SumExpr, ls: seq<Lexeme>, pos: nat)
    requires WellFormedSum(s)
    requires RenderedAt(ls, pos, RenderSum(s))
    requires pos + |RenderSum(s)| < |ls| && ls[pos + |RenderSum(s)|].token in {Number, ClosingBracket, Eof}
    ensures Expression(ls, pos) == Then(EvalSum(s), pos + |RenderSum(s)|)
    decreases s, 2
  {
    hide Expression, PlusMinus, PlusMinusLoop, MultiplyDivision, MultiplyDivisionLoop, Factor, ParseLiteral;
    RenderedAtHead(ls, pos, RenderSum(s));
    ExpressionUnfold(ls, pos);
    SumParses(s, ls, pos);
  }

  /** A bracketed sum after `(`: `expression` leaves the cursor on the
      closing bracket. */
  lemma GroupParses(inner: SumExpr, ls: seq<Lexeme>, pos: nat)
    requires WellFormedSum(inner)
    requires RenderedAt(ls, pos, RenderSum(inner) + [CloseLexeme])
    ensures Expression(ls, pos) == Then(EvalSum(inner), pos + |RenderSum(inner)|)
    decreases inner, 3
  {
    hide Expression, PlusMinus, PlusMinusLoop, MultiplyDivision, MultiplyDivisionLoop, Factor, ParseLiteral;
    var ri := RenderSum(inner);
    RenderedAtSplit(ls, pos, ri, [CloseLexeme]);
    RenderedAtHead(ls, pos + |ri|, [CloseLexeme]);
    ExpressionStops(inner, ls, pos);
  }

  /** Where the parts of `left op right` lie when it is rendered at `pos`. */
  lemma InfixLayout(ls: seq<Lexeme>, pos: nat, left: seq<Lexeme>, op: Lexeme, right: seq<Lexeme>)
    requires RenderedAt(ls, pos, left + [op] + right)
    ensures RenderedAt(ls, pos, left)
    ensures pos + |left| < |ls| && ls[pos + |left|] == op
    ensures RenderedAt(ls, pos + |left| + 1, right)
  {
    RenderedAtSplit(ls, pos, left + [op], right);
    RenderedAtSplit(ls, pos, left, [op]);
    RenderedAtHead(ls, pos + |left|, [op]);
  }

  /** Where the parts of `left ( group )` lie when it is rendered at `pos`. */
  lemma BracketLayout(ls: seq<Lexeme>, pos: nat, left: seq<Lexeme>, group: seq<Lexeme>)
    requires RenderedAt(ls, pos, left + [OpenLexeme] + group + [CloseLexeme])
    ensures RenderedAt(ls, pos, left)
    ensures pos + |left| < |ls| && ls[pos + |left|] == OpenLexeme
    ensures RenderedAt(ls, pos + |left| + 1, group + [CloseLexeme])
    ensures RenderedAt(ls, pos + |left| + 1, group)
    ensures pos + |left| + 1 + |group| < |ls| && ls[pos + |left| + 1 + |group|] == CloseLexeme
  {
    assert left + [OpenLexeme] + group + [CloseLexeme] == left + [OpenLexeme] + (group + [CloseLexeme]);
    InfixLayout(ls, pos, left, OpenLexeme, group + [CloseLexeme]);
    RenderedAtSplit(ls, pos + |left| + 1, group, [CloseLexeme]);
    RenderedAtHead(ls, pos + |left| + 1 + |group|, [CloseLexeme]);
  }

  /** A factor consumes exactly its own lexemes. */
  lemma {:induction false} FactorParses(f: FactorExpr, ls: seq<Lexeme>, pos: nat)
    requires WellFormedFactor(f)
    requires RenderedAt(ls, pos, RenderFactor(f))
    ensures Factor(ls, pos) == Then(EvalFactor(f), pos + |RenderFactor(f)|)
    decreases f, 1
  {
    hide Expression, PlusMinus, PlusMinusLoop, MultiplyDivision, MultiplyDivisionLoop, Factor, ParseLiteral;
    if f.Literal? {
      LiteralParses(f.negated, f.text, ls, pos);
    } else {
      BracketedFactorParses(f, ls, pos);
    }
  }

  lemma LiteralParses(neg: bool, t: string, ls: seq<Lexeme>, pos: nat)
    requires RenderedAt(ls, pos, RenderFactor(Literal(neg, t)))
    ensures Factor(ls, pos) == Then(EvalFactor(Literal(neg, t)), pos + |RenderFactor(Literal(neg, t))|)
  {
    var sign := if neg then [MinusLexeme] else [];
    var number := Lexeme(Number, t);
    assert RenderFactor(Literal(neg, t)) == sign + [number];
    RenderedAtSplit(ls, pos, sign, [number]);
    RenderedAtHead(ls, pos + |sign|, [number]);
    if neg {
      RenderedAtHead(ls, pos, sign);
    }
    FactorOnNumber(ls, pos, neg, t);
  }

  lemma {:induction false} BracketedFactorParses(f: FactorExpr, ls: seq<Lexeme>, pos: nat)
    requires f.Group? && WellFormedFactor(f)
    requires RenderedAt(ls, pos, RenderFactor(f))
    ensures Factor(ls, pos) == Then(EvalFactor(f), pos + |RenderFactor(f)|)
    decreases f, 0
  {
    hide Expression, PlusMinus, PlusMinusLoop, MultiplyDivision, MultiplyDivisionLoop, Factor, ParseLiteral;
    var sign := if f.negated then [MinusLexeme] else [];
    var ri := RenderSum(f.inner);
    BracketLayout(ls, pos, sign, ri);
    if f.negated {
      RenderedAtHead(ls, pos, sign);
    }
    GroupParses(f.inner, ls, pos + |sign| + 1);
    FactorOnGroup(ls, pos, f.negated, f.inner, pos + |sign| + 1 + |ri|);
  }

  /** One unfolding of `multiplyDivision`. */
  lemma MultiplyDivisionUnfold(ls: seq<Lexeme>, pos: nat)
    requires pos <= |ls|
    ensures MultiplyDivision(ls, pos) ==
      if Factor(ls, pos).Err? then Err(Factor(ls, pos).error)
      else MultiplyDivisionLoop(ls, Factor(ls, pos).value.pos, Factor(ls, pos).value.value)
  {
    hide Expression, PlusMinus, PlusMinusLoop, MultiplyDivisionLoop, Factor, ParseLiteral;
  }

  /** One turn of the `multiplyDivision` loop on `*` or `/`. */
  lemma MultiplyDivisionLoopOnOperator(ls: seq<Lexeme>, pos: nat, acc: Value, op: Operator, f: FactorExpr, end: nat)
    requires pos < |ls| && ls[pos] == OperatorLexeme(op) && (op == Multiply || op == Divide)
    requires Factor(ls, pos + 1) == Then(EvalFactor(f), end)
    requires end <= |ls|
    ensures MultiplyDivisionLoop(ls, pos, acc) ==
      if EvalFactor(f).Err? then Err(EvalFactor(f).error)
      else MultiplyDivisionLoop(ls, end, Apply(op, acc, EvalFactor(f).value))
  {
    hide Expression, PlusMinus, PlusMinusLoop, MultiplyDivision, Factor, EvalFactor, ParseLiteral;
  }

  /** One turn of the `multiplyDivision` loop on a bracketed expression. */
  lemma MultiplyDivisionLoopOnGroup(ls: seq<Lexeme>, pos: nat, acc: Value, g: SumExpr, close: nat)
    requires pos < |ls| && ls[pos] == OpenLexeme
    requires close < |ls| && ls[close] == CloseLexeme
    requires Expression(ls, pos + 1) == Then(EvalSum(g), close)
    ensures MultiplyDivisionLoop(ls, pos, acc) ==
      if EvalSum(g).Err? then Err(EvalSum(g).error)
      else MultiplyDivisionLoop(ls, close + 1, Apply(Multiply, acc, EvalSum(g).value))
  {
    hide Expression, PlusMinus, PlusMinusLoop, MultiplyDivision, Factor, EvalSum, ParseLiteral;
  }

  /** A product is parsed by `multiplyDivision` up to its last lexeme, and
      the loop then resumes with the product's value as running result. */
  lemma {:induction false} ProductParses(p: ProductExpr, ls: seq<Lexeme>, pos: nat)
    requires WellFormedProduct(p)
    requires RenderedAt(ls, pos, RenderProduct(p))
    ensures MultiplyDivision(ls, pos) ==
      if EvalProduct(p).Err? then Err(EvalProduct(p).error)
      else MultiplyDivisionLoop(ls, pos + |RenderProduct(p)|, EvalProduct(p).value)
    decreases p, 2
  {
    hide Expression, PlusMinus, PlusMinusLoop, MultiplyDivision, MultiplyDivisionLoop, Factor, ParseLiteral;
    match p
    case ProductOf(f) =>
      FactorParses(f, ls, pos);
      MultiplyDivisionUnfold(ls, pos);
    case Multiplicative(_, _, _) =>
      MultiplicativeParses(p, ls, pos);
    case Juxtaposed(_, _) =>
      JuxtaposedParses(p, ls, pos);
  }

  /** `left op factor` continues the loop where `left` left it, once the
      factor after the operator is parsed. */
  lemma MultiplicativeStep(p: ProductExpr, ls: seq<Lexeme>, pos: nat, k: nat, end: nat)
    requires p.Multiplicative? && (p.mulOp == Multiply || p.mulOp == Divide)
    requires pos <= k < |ls| && ls[k] == OperatorLexeme(p.mulOp) && end <= |ls|
    requires MultiplyDivision(ls, pos) ==
      if EvalProduct(p.left).Err? then Err(EvalProduct(p.left).error)
      else MultiplyDivisionLoop(ls, k, EvalProduct(p.left).value)
    requires Factor(ls, k + 1) == Then(EvalFactor(p.right), end)
    ensures MultiplyDivision(ls, pos) ==
      if EvalProduct(p).Err? then Err(EvalProduct(p).error)
      else MultiplyDivisionLoop(ls, end, EvalProduct(p).value)
  {
    hide Expression, PlusMinus, PlusMinusLoop, MultiplyDivision, MultiplyDivisionLoop, Factor, ParseLiteral;
    if EvalProduct(p.left).Ok? {
      MultiplyDivisionLoopOnOperator(ls, k, EvalProduct(p.left).value, p.mulOp, p.right, end);
    }
  }

  /** The two operands of `left op factor`, each parsed where it lies. */
  lemma {:induction false} MultiplicativeOperands(p: ProductExpr, ls: seq<Lexeme>, pos: nat, k: nat, end: nat)
    requires p.Multiplicative? && (p.mulOp == Multiply || p.mulOp == Divide)
    requires WellFormedProduct(p.left) && WellFormedFactor(p.right)
    requires RenderedAt(ls, pos, RenderProduct(p.left)) && k == pos + |RenderProduct(p.left)|
    requires k < |ls| && ls[k] == OperatorLexeme(p.mulOp)
    requires RenderedAt(ls, k + 1, RenderFactor(p.right)) && end == k + 1 + |RenderFactor(p.right)|
    ensures MultiplyDivision(ls, pos) ==
      if EvalProduct(p).Err? then Err(EvalProduct(p).error)
      else MultiplyDivisionLoop(ls, end, EvalProduct(p).value)
    decreases p, 0
  {
    hide Expression, PlusMinus, PlusMinusLoop, MultiplyDivision, MultiplyDivisionLoop, Factor, ParseLiteral;
    assert end <= |ls|;
    hide RenderProduct, RenderFactor, WellFormedProduct, WellFormedFactor, RenderedAt, EvalProduct, EvalFactor;
    ProductParses(p.left, ls, pos);
    FactorParses(p.right, ls, k + 1);
    MultiplicativeStep(p, ls, pos, k, end);
  }

  lemma {:induction false} MultiplicativeParses(p: ProductExpr, ls: seq<Lexeme>, pos: nat)
    requires p.Multiplicative? && WellFormedProduct(p)
    requires RenderedAt(ls, pos, RenderProduct(p))
    ensures MultiplyDivision(ls, pos) ==
      if EvalProduct(p).Err? then Err(EvalProduct(p).error)
      else MultiplyDivisionLoop(ls, pos + |RenderProduct(p)|, EvalProduct(p).value)
    decreases p, 1
  {
    hide Expression, PlusMinus, PlusMinusLoop, MultiplyDivision, MultiplyDivisionLoop, Factor, ParseLiteral;
    var rl := RenderProduct(p.left);
    var rf := RenderFactor(p.right);
    assert RenderProduct(p) == rl + [OperatorLexeme(p.mulOp)] + rf;
    InfixLayout(ls, pos, rl, OperatorLexeme(p.mulOp), rf);
    MultiplicativeOperands(p, ls, pos, pos + |rl|, pos + |rl| + 1 + |rf|);
  }

  /** `left ( group )` continues the loop where `left` left it, once the
      bracketed expression is parsed up to its `)`. */
  lemma JuxtaposedStep(p: ProductExpr, ls: seq<Lexeme>, pos: nat, k: nat, close: nat)
    requires p.Juxtaposed?
    requires pos <= k < |ls| && ls[k] == OpenLexeme
    requires close < |ls| && ls[close] == CloseLexeme
    requires MultiplyDivision(ls, pos) ==
      if EvalProduct(p.left).Err? then Err(EvalProduct(p.left).error)
      else MultiplyDivisionLoop(ls, k, EvalProduct(p.left).value)
    requires Expression(ls, k + 1) == Then(EvalSum(p.group), close)
    ensures MultiplyDivision(ls, pos) ==
      if EvalProduct(p).Err? then Err(EvalProduct(p).error)
      else MultiplyDivisionLoop(ls, close + 1, EvalProduct(p).value)
  {
    hide Expression, PlusMinus, PlusMinusLoop, MultiplyDivision, MultiplyDivisionLoop, Factor, ParseLiteral;
    if EvalProduct(p.left).Ok? {
      MultiplyDivisionLoopOnGroup(ls, k, EvalProduct(p.left).value, p.group, close);
    }
  }

  lemma {:induction false} JuxtaposedParses(p: ProductExpr, ls: seq<Lexeme>, pos: nat)
    requires p.Juxtaposed? && WellFormedProduct(p)
    requires RenderedAt(ls, pos, RenderProduct(p))
    ensures MultiplyDivision(ls, pos) ==
      if EvalProduct(p).Err? then Err(EvalProduct(p).error)
      else MultiplyDivisionLoop(ls, pos + |RenderProduct(p)|, EvalProduct(p).value)
    decreases p, 1
  {
    hide Expression, PlusMinus, PlusMinusLoop, MultiplyDivision, MultiplyDivisionLoop, Factor, ParseLiteral;
    var rl := RenderProduct(p.left);
    var rg := RenderSum(p.group);
    assert RenderProduct(p) == rl + [OpenLexeme] + rg + [CloseLexeme];
    BracketLayout(ls, pos, rl, rg);
    assert WellFormedProduct(p.left) && WellFormedSum(p.group);
    hide RenderProduct, RenderSum, WellFormedProduct, WellFormedSum, RenderedAt, EvalProduct, EvalSum;
    ProductParses(p.left, ls, pos);
    GroupParses(p.group, ls, pos + |rl| + 1);
    JuxtaposedStep(p, ls, pos, pos + |rl|, pos + |rl| + 1 + |rg|);
  }

  /** One unfolding of `plusMinus`. */
  lemma PlusMinusUnfold(ls: seq<Lexeme>, pos: nat)
    requires pos <= |ls|
    ensures PlusMinus(ls, pos) ==
      if MultiplyDivision(ls, pos).Err? then Err(MultiplyDivision(ls, pos).error)
      else PlusMinusLoop(ls, MultiplyDivision(ls, pos).value.pos, MultiplyDivision(ls, pos).value.value)
  {
    hide Expression, PlusMinusLoop, MultiplyDivision, MultiplyDivisionLoop, Factor, ParseLiteral;
  }

  /** One turn of the `plusMinus` loop on `+` or `-`. */
  lemma PlusMinusLoopOnOperator(ls: seq<Lexeme>, pos: nat, acc: Value, op: Operator, r: ProductExpr, end: nat)
    requires pos < |ls| && ls[pos] == OperatorLexeme(op) && (op == Add || op == Subtract)
    requires end < |ls| && MultiplyDivision(ls, pos + 1) == Then(EvalProduct(r), end)
    ensures PlusMinusLoop(ls, pos, acc) ==
      if EvalProduct(r).Err? then Err(EvalProduct(r).error)
      else PlusMinusLoop(ls, end, Apply(op, acc, EvalProduct(r).value))
  {
    hide Expression, PlusMinus, MultiplyDivision, MultiplyDivisionLoop, Factor, EvalProduct, ParseLiteral;
  }

  /** A product followed by a lexeme that ends it yields its value there. */
  lemma {:induction false} ProductStops(p: ProductExpr, ls: seq<Lexeme>, pos: nat)
    requires WellFormedProduct(p)
    requires RenderedAt(ls, pos, RenderProduct(p))
    requires pos + |RenderProduct(p)| < |ls| && EndsProduct(ls[pos + |RenderProduct(p)|].token)
    ensures MultiplyDivision(ls, pos) == Then(EvalProduct(p), pos + |RenderProduct(p)|)
    decreases p, 3
  {
    hide Expression, PlusMinus, PlusMinusLoop, MultiplyDivision, MultiplyDivisionLoop, Factor, ParseLiteral;
    ProductParses(p, ls, pos);
  }

  /** A sum followed by a lexeme that ends a product is parsed by
      `plusMinus` up to its last lexeme; the loop then resumes with the
      sum's value as running result. */
  lemma {:induction false} SumParses(s: SumExpr, ls: seq<Lexeme>, pos: nat)
    requires WellFormedSum(s)
    requires RenderedAt(ls, pos, RenderSum(s))
    requires pos + |RenderSum(s)| < |ls| && EndsProduct(ls[pos + |RenderSum(s)|].token)
    ensures PlusMinus(ls, pos) ==
      if EvalSum(s).Err? then Err(EvalSum(s).error)
      else PlusMinusLoop(ls, pos + |RenderSum(s)|, EvalSum(s).value)
    decreases s, 1
  {
    hide Expression, PlusMinus, PlusMinusLoop, MultiplyDivision, MultiplyDivisionLoop, Factor, ParseLiteral;
    match s
    case SumOf(p) =>
      ProductStops(p, ls, pos);
      PlusMinusUnfold(ls, pos);
    case Additive(_, _, _) =>
      AdditiveParses(s, ls, pos);
  }

  lemma {:induction false} AdditiveParses(s: SumExpr, ls: seq<Lexeme>, pos: nat)
    requires s.Additive? && WellFormedSum(s)
    requires RenderedAt(ls, pos, RenderSum(s))
    requires pos + |RenderSum(s)| < |ls| && EndsProduct(ls[pos + |RenderSum(s)|].token)
    ensures PlusMinus(ls, pos) ==
      if EvalSum(s).Err? then Err(EvalSum(s).error)
      else PlusMinusLoop(ls, pos + |RenderSum(s)|, EvalSum(s).value)
    decreases s, 0
  {
    hide Expression, PlusMinus, PlusMinusLoop, MultiplyDivision, MultiplyDivisionLoop, Factor, ParseLiteral;
    var rl := RenderSum(s.left);
    var rr := RenderProduct(s.right);
    InfixLayout(ls, pos, rl, OperatorLexeme(s.addOp), rr);
    SumParses(s.left, ls, pos);
    ProductStops(s.right, ls, pos + |rl| + 1);
    if EvalSum(s.left).Ok? {
      PlusMinusLoopOnOperator(ls, pos + |rl|, EvalSum(s.left).value, s.addOp, s.right, pos + |rl| + 1 + |rr|);
    }
  }

  /** `expression` from the first lexeme of a well-formed tree followed by
      a NUMBER, a `)` or EOF returns the tree's value and leaves the cursor
      on that lexeme: whatever follows a complete expression is not read. */
  lemma ExpressionParses(s: SumExpr, rest: seq<Lexeme>)
    requires WellFormedSum(s)
    requires |rest| > 0 && rest[0].token in {Number, ClosingBracket, Eof}
    ensures Expression(RenderSum(s) + rest, 0) == Then(EvalSum(s), |RenderSum(s)|)
  {
    hide Expression, PlusMinus, PlusMinusLoop, MultiplyDivision, MultiplyDivisionLoop, Factor, ParseLiteral;
    var r := RenderSum(s);
    var ls := r + rest;
    assert ls[0..|r|] == r;
    assert ls[|r|] == rest[0];
    ExpressionStops(s, ls, 0);
  }

  /** An expression whose first factor fails fails with the same error. */
  lemma LeadingFactorFails(ls: seq<Lexeme>, pos: nat)
    requires pos < |ls| && ls[pos].token != Eof && Factor(ls, pos).Err?
    ensures Expression(ls, pos) == Err(Factor(ls, pos).error)
  {
    hide Expression, PlusMinus, PlusMinusLoop, MultiplyDivision, MultiplyDivisionLoop, Factor, ParseLiteral;
    ExpressionUnfold(ls, pos);
    PlusMinusUnfold(ls, pos);
    MultiplyDivisionUnfold(ls, pos);
  }

  /** `factor` on `(`, with or without a sign, when the bracketed
      expression is not followed by `)`. */
  lemma FactorOnUnclosedGroup(ls: seq<Lexeme>, pos: nat, negated: bool, v: Value, end: nat)
    requires pos + (if negated then 1 else 0) < |ls|
    requires negated ==> ls[pos] == MinusLexeme
    requires ls[pos + (if negated then 1 else 0)] == OpenLexeme
    requires Expression(ls, pos + (if negated then 2 else 1)) == Ok(Step(v, end))
    requires end < |ls| && ls[end].token != ClosingBracket
    ensures Factor(ls, pos) == Err(UnexpectedLexeme(ls[end].text, end + 1))
  {
    hide Expression, PlusMinus, PlusMinusLoop, MultiplyDivision, MultiplyDivisionLoop, ParseLiteral;
  }

  /** `(` followed by a complete expression and EOF: the closing bracket is
      missing, and `factor` reports the EOF lexeme, with the cursor one past
      it. */
  lemma UnclosedGroupFails(s: SumExpr)
    requires WellFormedSum(s)
    requires EvalSum(s).Ok?
    ensures Expression([OpenLexeme] + RenderSum(s) + [EofLexeme], 0)
         == Err(UnexpectedLexeme("", |RenderSum(s)| + 2))
  {
    hide Expression, PlusMinus, PlusMinusLoop, MultiplyDivision, MultiplyDivisionLoop, Factor, ParseLiteral;
    var r := RenderSum(s);
    var ls := [OpenLexeme] + r + [EofLexeme];
    assert ls[1..1 + |r|] == r;
    assert ls[1 + |r|] == EofLexeme;
    ExpressionStops(s, ls, 1);
    FactorOnUnclosedGroup(ls, 0, false, EvalSum(s).value, 1 + |r|);
    MultiplyDivisionUnfold(ls, 0);
    PlusMinusUnfold(ls, 0);
    ExpressionUnfold(ls, 0);
  }

  /** One turn of the `multiplyDivision` loop on `(` when the bracketed
      expression is not followed by `)`. */
  lemma MultiplyDivisionLoopOnUnclosedGroup(ls: seq<Lexeme>, pos: nat, acc: Value, v: Value, end: nat)
    requires pos < |ls| && ls[pos] == OpenLexeme
    requires Expression(ls, pos + 1) == Ok(Step(v, end))
    requires end < |ls| && ls[end].token != ClosingBracket
    ensures MultiplyDivisionLoop(ls, pos, acc) == Err(UnexpectedLexeme(ls[end].text, end + 1))
  {
    hide Expression, PlusMinus, PlusMinusLoop, MultiplyDivision, Factor, ParseLiteral;
  }

  /** Where the parts of `left ( inner EOF` lie. */
  lemma UnclosedLayout(left: seq<Lexeme>, inner: seq<Lexeme>)
    requires StartsFactor(left)
    ensures var ls := left + [OpenLexeme] + inner + [EofLexeme];
      && RenderedAt(ls, 0, left)
      && ls[0].token != Eof
      && ls[|left|] == OpenLexeme
      && RenderedAt(ls, |left| + 1, inner)
      && |left| + 1 + |inner| < |ls| && ls[|left| + 1 + |inner|] == EofLexeme
  {
    var ls := left + [OpenLexeme] + inner + [EofLexeme];
    assert ls[0..|left|] == left;
    assert ls[|left| + 1..|left| + 1 + |inner|] == inner;
    assert ls[0] == left[0];
  }

  /** A product, then `(`, a complete expression and EOF: the implicit
      multiplication misses its closing bracket, and `multiplyDivision`
      reports the EOF lexeme, with the cursor one past it. */
  lemma JuxtaposedUnclosedFails(p: ProductExpr, s: SumExpr)
    requires WellFormedProduct(p) && WellFormedSum(s)
    requires EvalProduct(p).Ok? && EvalSum(s).Ok?
    ensures Expression(RenderProduct(p) + [OpenLexeme] + RenderSum(s) + [EofLexeme], 0)
         == Err(UnexpectedLexeme("", |RenderProduct(p)| + |RenderSum(s)| + 2))
  {
    hide Expression, PlusMinus, PlusMinusLoop, MultiplyDivision, MultiplyDivisionLoop, Factor, ParseLiteral;
    hide RenderProduct, RenderSum, WellFormedProduct, WellFormedSum, EvalProduct, EvalSum, RenderedAt;
    var rp := RenderProduct(p);
    var r := RenderSum(s);
    var ls := rp + [OpenLexeme] + r + [EofLexeme];
    var close := |rp| + 1 + |r|;
    UnclosedLayout(rp, r);
    ProductParses(p, ls, 0);
    ExpressionStops(s, ls, |rp| + 1);
    MultiplyDivisionLoopOnUnclosedGroup(ls, |rp|, EvalProduct(p).value, EvalSum(s).value, close);
    PlusMinusUnfold(ls, 0);
    ExpressionUnfold(ls, 0);
  }
}

=== FILE: results.dfy ===
/** What the calculator's stages return instead of throwing.

    The calculator signals every failure with an exception and lets it
    unwind to the caller. Here each exception it can raise is one
    constructor of `Error`, every stage returns a `Result`, and `:-` plays
    the part of the unwinding: the first error met is the one reported.
 */
module Results {

  datatype Option<+T> = None | Some(value: T)

  /** The ways an evaluation can fail.
      - UnexpectedLexeme: the exception of the same name, raised both by the
        lexer (text is the offending character, position its 0-based index
        in the input) and by the parser (text is the offending lexeme's
        value, position is the cursor just after it was fetched).
      - BadLiteral: a NUMBER lexeme whose text is not a floating-point
        literal (the NumberFormatException of `toDouble`).
      - IndexOutOfBounds: the cursor was asked for the lexeme at `index`,
        one past the end of the list.
      - DivisionByZero: the expression divided by zero somewhere; the
        platform would return an IEEE infinity or NaN, which reals cannot
        represent, so the evaluator reports this outcome instead. */
  datatype Error =
    | UnexpectedLexeme(text: string, position: int)
    | BadLiteral(literal: string)
    | IndexOutOfBounds(index: int)
    | DivisionByZero

  datatype Result<+T> = Ok(value: T) | Err(error: Error) {

    predicate IsFailure() {
      Err?
    }

    function PropagateFailure<U>(): Result<U>
      requires Err?
    {
      Err(error)
    }

    function Extract(): T
      requires Ok?
    {
      value
    }
  }
}

=== FILE: syntax.dfy ===
/** Reference semantics for the evaluator: a syntax tree shaped like the
    grammar, the lexemes that spell a tree, and the tree's value.

      sum     := product | sum ('+' | '-') product
      product := factor | product ('*' | '/') factor | product '(' sum ')'
      factor  := '-'? (NUMBER | '(' sum ')')

    The trees are left-nested, so `a - b - c` is `(a - b) - c` and
    `a / b * c` is `(a / b) * c`; products bind tighter than sums because
    the operands of a sum are products. */
module Syntax {
  import opened Results
  import opened Lexer
  import opened Literals
  import opened Evaluator

  datatype SumExpr =
    | SumOf(product: ProductExpr)
    | Additive(left: SumExpr, addOp: Operator, right: ProductExpr)

  datatype ProductExpr =
    | ProductOf(factor: FactorExpr)
    | Multiplicative(left: ProductExpr, mulOp: Operator, right: FactorExpr)
    | Juxtaposed(left: ProductExpr, group: SumExpr)

  datatype FactorExpr =
    | Literal(negated: bool, text: string)
    | Group(negated: bool, inner: SumExpr)

  predicate WellFormedSum(s: SumExpr) {
    match s
    case SumOf(p) => WellFormedProduct(p)
    case Additive(l, op, r) => (op == Add || op == Subtract) && WellFormedSum(l) && WellFormedProduct(r)
  }

  predicate WellFormedProduct(p: ProductExpr) {
    match p
    case ProductOf(f) => WellFormedFactor(f)
    case Multiplicative(l, op, r) => (op == Multiply || op == Divide) && WellFormedProduct(l) && WellFormedFactor(r)
    case Juxtaposed(l, g) => WellFormedProduct(l) && WellFormedSum(g)
  }

  /** A literal is any text the lexer can make a NUMBER lexeme of. */
  predicate WellFormedFactor(f: FactorExpr) {
    match f
    case Literal(_, t) => ValidLexeme(Lexeme(Number, t))
    case Group(_, inner) => WellFormedSum(inner)
  }

  function OperatorLexeme(op: Operator): Lexeme {
    match op
    case Add => Lexeme(Plus, "+")
    case Subtract => Lexeme(Minus, "-")
    case Multiply => Lexeme(Mul, "*")
    case Divide => Lexeme(Div, "/")
  }

  const MinusLexeme := Lexeme(Minus, "-")
  const OpenLexeme := Lexeme(OpenBracket, "(")
  const CloseLexeme := Lexeme(ClosingBracket, ")")

  /** A rendering starts where a factor can start. */
  predicate StartsFactor(ls: seq<Lexeme>) {
    |ls| > 0 && ls[0].token in {Minus, Number, OpenBracket}
  }

  /** A rendering ends in a number or a closing bracket. */
  predicate EndsOperand(ls: seq<Lexeme>) {
    |ls| > 0 && ls[|ls| - 1].token in {Number, ClosingBracket}
  }

  function RenderSum(s: SumExpr): (ls: seq<Lexeme>)
    ensures StartsFactor(ls) && EndsOperand(ls)
  {
    match s
    case SumOf(p) => RenderProduct(p)
    case Additive(l, op, r) => RenderSum(l) + [OperatorLexeme(op)] + RenderProduct(r)
  }

  function RenderProduct(p: ProductExpr): (ls: seq<Lexeme>)
    ensures StartsFactor(ls) && EndsOperand(ls)
  {
    match p
    case ProductOf(f) => RenderFactor(f)
    case Multiplicative(l, op, r) => RenderProduct(l) + [OperatorLexeme(op)] + RenderFactor(r)
    case Juxtaposed(l, g) => RenderProduct(l) + [OpenLexeme] + RenderSum(g) + [CloseLexeme]
  }

  function RenderFactor(f: FactorExpr): (ls: seq<Lexeme>)
    ensures StartsFactor(ls) && EndsOperand(ls)
  {
    var sign := if f.negated then [MinusLexeme] else [];
    match f
    case Literal(_, t) => sign + [Lexeme(Number, t)]
    case Group(_, inner) => sign + [OpenLexeme] + RenderSum(inner) + [CloseLexeme]
  }

  /** The value of a tree, evaluated left to right; the first literal that
      does not convert is the error. */
  function EvalSum(s: SumExpr): (r: Result<Value>)
    ensures r.Err? ==> r.error.BadLiteral?
  {
    match s
    case SumOf(p) => EvalProduct(p)
    case Additive(l, op, r) =>
      var a :- EvalSum(l);
      var b :- EvalProduct(r);
      Ok(Apply(op, a, b))
  }

  function EvalProduct(p: ProductExpr): (r: Result<Value>)
    ensures r.Err? ==> r.error.BadLiteral?
  {
    match p
    case ProductOf(f) => EvalFactor(f)
    case Multiplicative(l, op, r) =>
      var a :- EvalProduct(l);
      var b :- EvalFactor(r);
      Ok(Apply(op, a, b))
    case Juxtaposed(l, g) =>
      var a :- EvalProduct(l);
      var b :- EvalSum(g);
      Ok(Apply(Multiply, a, b))
  }

  function EvalFactor(f: FactorExpr): (r: Result<Value>)
    ensures r.Err? ==> r.error.BadLiteral?
  {
    match f
    case Literal(neg, t) =>
      var x := ParseLiteral(t);
      if x.None? then Err(BadLiteral(t)) else Ok(Signed(neg, Real(x.value)))
    case Group(neg, inner) =>
      var v :- EvalSum(inner);
      Ok(Signed(neg, v))
  }

  /** Gluing two lexable lists around a lexeme that is neither a NUMBER nor
      EOF keeps them lexable. */
  lemma LexableAround(a: seq<Lexeme>, l: Lexeme, b: seq<Lexeme>)
    requires Lexable(a) && Lexable(b)
    requires l.token != Eof && l.token != Number && ValidLexeme(l)
    ensures Lexable(a + [l] + b)
  {
    var ls := a + [l] + b;
    forall k | 0 <= k < |ls|
      ensures ls[k].token != Eof && ValidLexeme(ls[k])
    {
      if k < |a| {
        assert ls[k] == a[k];
      } else if k > |a| {
        assert ls[k] == b[k - |a| - 1];
      }
    }
    forall k | 0 <= k < |ls| - 1
      ensures !(ls[k].token == Number && ls[k + 1].token == Number)
    {
      if k + 1 < |a| {
        assert ls[k] == a[k] && ls[k + 1] == a[k + 1];
      } else if k > |a| {
        assert ls[k] == b[k - |a| - 1] && ls[k + 1] == b[k - |a|];
      }
    }
  }

  /** The lexemes of a well-formed tree are ones the lexer produces. */
  lemma {:induction false} RenderSumLexable(s: SumExpr)
    requires WellFormedSum(s)
    ensures Lexable(RenderSum(s))
    decreases s, 1
  {
    match s
    case SumOf(p) =>
      RenderProductLexable(p);
    case Additive(l, op, r) =>
      RenderSumLexable(l);
      RenderProductLexable(r);
      LexableAround(RenderSum(l), OperatorLexeme(op), RenderProduct(r));
  }

  lemma {:induction false} RenderProductLexable(p: ProductExpr)
    requires WellFormedProduct(p)
    ensures Lexable(RenderProduct(p))
    decreases p, 1
  {
    match p
    case ProductOf(f) =>
      RenderFactorLexable(f);
    case Multiplicative(l, op, r) =>
      RenderProductLexable(l);
      RenderFactorLexable(r);
      LexableAround(RenderProduct(l), OperatorLexeme(op), RenderFactor(r));
    case Juxtaposed(l, g) =>
      RenderProductLexable(l);
      RenderSumLexable(g);
      BracketedLexable(RenderProduct(l), RenderSum(g));
  }

  lemma {:induction false} RenderFactorLexable(f: FactorExpr)
    requires WellFormedFactor(f)
    ensures Lexable(RenderFactor(f))
    decreases f, 1
  {
    var sign: seq<Lexeme> := if f.negated then [MinusLexeme] else [];
    assert Lexable(sign);
    match f
    case Literal(_, t) =>
      assert Lexable([Lexeme(Number, t)]);
      LexableAround([], MinusLexeme, [Lexeme(Number, t)]);
      assert [] + [MinusLexeme] + [Lexeme(Number, t)] == [MinusLexeme, Lexeme(Number, t)];
    case Group(_, inner) =>
      RenderSumLexable(inner);
      BracketedLexable(sign, RenderSum(inner));
  }

  lemma BracketedLexable(a: seq<Lexeme>, g: seq<Lexeme>)
    requires Lexable(a) && Lexable(g)
    ensures Lexable(a + [OpenLexeme] + g + [CloseLexeme])
  {
    LexableAround(a, OpenLexeme, g);
    LexableAround(a + [OpenLexeme] + g, CloseLexeme, []);
    assert a + [OpenLexeme] + g + [CloseLexeme] + [] == a + [OpenLexeme] + g + [CloseLexeme];
  }
}

=== FILE: token_proofs.dfy ===
/** The evaluator reads lexemes by their token alone, except a NUMBER
    lexeme, whose text it converts, and an unexpected lexeme, whose text it
    reports. So two lexeme lists with the same tokens and the same NUMBER
    texts are evaluated alike, up to the text of an unexpected lexeme: '/'
    and '÷' are the same operator. */
module TokenProofs {
  import opened Results
  import opened Lexer
  import opened Literals
  import opened Evaluator

  /** `a` and `b` hold the same tokens, and the same text wherever the
      token is NUMBER. */
  predicate SameTokens(a: seq<Lexeme>, b: seq<Lexeme>) {
    && |a| == |b|
    && (forall k :: 0 <= k < |a| ==> a[k].token == b[k].token)
    && (forall k :: 0 <= k < |a| && a[k].token == Number ==> a[k].text == b[k].text)
  }

  /** A grammar result that does not report an unexpected lexeme. */
  predicate NoUnexpected(r: Result<Step>) {
    r.Ok? || !r.error.UnexpectedLexeme?
  }

  lemma {:induction false} ExpressionSameTokens(a: seq<Lexeme>, b: seq<Lexeme>, pos: nat)
    requires pos <= |a| && SameTokens(a, b)
    requires NoUnexpected(Expression(a, pos))
    ensures Expression(b, pos) == Expression(a, pos)
    decreases |a| - pos, 3
  {
    hide PlusMinus, PlusMinusLoop, MultiplyDivision, MultiplyDivisionLoop, Factor, Next, Apply, Signed;
    if pos < |a| && a[pos].token != Eof {
      PlusMinusSameTokens(a, b, pos);
    }
  }

  lemma {:induction false} PlusMinusSameTokens(a: seq<Lexeme>, b: seq<Lexeme>, pos: nat)
    requires pos <= |a| && SameTokens(a, b)
    requires NoUnexpected(PlusMinus(a, pos))
    ensures PlusMinus(b, pos) == PlusMinus(a, pos)
    decreases |a| - pos, 2
  {
    hide Expression, PlusMinusLoop, MultiplyDivision, MultiplyDivisionLoop, Factor, Next, Apply, Signed;
    MultiplyDivisionSameTokens(a, b, pos);
    var first := MultiplyDivision(a, pos);
    if first.Ok? {
      PlusMinusLoopSameTokens(a, b, first.value.pos, first.value.value);
    }
  }

  lemma {:induction false} PlusMinusLoopSameTokens(a: seq<Lexeme>, b: seq<Lexeme>, pos: nat, acc: Value)
    requires pos <= |a| && SameTokens(a, b)
    requires NoUnexpected(PlusMinusLoop(a, pos, acc))
    ensures PlusMinusLoop(b, pos, acc) == PlusMinusLoop(a, pos, acc)
    decreases |a| - pos, 2
  {
    hide Expression, PlusMinus, MultiplyDivision, MultiplyDivisionLoop, Factor, Next, Apply, Signed;
    if pos < |a| && a[pos].token in {Plus, Minus} {
      MultiplyDivisionSameTokens(a, b, pos + 1);
      var rhs := MultiplyDivision(a, pos + 1);
      if rhs.Ok? {
        var op := if a[pos].token == Plus then Add else Subtract;
        PlusMinusLoopSameTokens(a, b, rhs.value.pos, Apply(op, acc, rhs.value.value));
      }
    }
  }

  lemma {:induction false} MultiplyDivisionSameTokens(a: seq<Lexeme>, b: seq<Lexeme>, pos: nat)
    requires pos <= |a| && SameTokens(a, b)
    requires NoUnexpected(MultiplyDivision(a, pos))
    ensures MultiplyDivision(b, pos) == MultiplyDivision(a, pos)
    decreases |a| - pos, 1
  {
    hide Expression, PlusMinus, PlusMinusLoop, MultiplyDivisionLoop, Factor, Next, Apply, Signed;
    FactorSameTokens(a, b, pos);
    var first := Factor(a, pos);
    if first.Ok? {
      MultiplyDivisionLoopSameTokens(a, b, first.value.pos, first.value.value);
    }
  }

  lemma {:induction false} MultiplyDivisionLoopSameTokens(a: seq<Lexeme>, b: seq<Lexeme>, pos: nat, acc: Value)
    requires pos <= |a| && SameTokens(a, b)
    requires NoUnexpected(MultiplyDivisionLoop(a, pos, acc))
    ensures MultiplyDivisionLoop(b, pos, acc) == MultiplyDivisionLoop(a, pos, acc)
    decreases |a| - pos, 2
  {
    hide Expression, PlusMinus, PlusMinusLoop, MultiplyDivision, Factor, Next, Apply, Signed;
    if pos < |a| && a[pos].token in {Mul, Div} {
      FactorSameTokens(a, b, pos + 1);
      var rhs := Factor(a, pos + 1);
      if rhs.Ok? {
        var op := if a[pos].token == Mul then Multiply else Divide;
        MultiplyDivisionLoopSameTokens(a, b, rhs.value.pos, Apply(op, acc, rhs.value.value));
      }
    } else if pos < |a| && a[pos].token == OpenBracket {
      GroupLoopSameTokens(a, b, pos, acc);
    }
  }

  /** One unfolding of the `multiplyDivision` loop on `(`. */
  lemma LoopOnBracket(ls: seq<Lexeme>, pos: nat, acc: Value)
    requires pos < |ls| && ls[pos].token == OpenBracket
    ensures Expression(ls, pos + 1).Err? ==>
      MultiplyDivisionLoop(ls, pos, acc) == Err(Expression(ls, pos + 1).error)
    ensures Expression(ls, pos + 1).Ok? && Expression(ls, pos + 1).value.pos >= |ls| ==>
      MultiplyDivisionLoop(ls, pos, acc) == Err(IndexOutOfBounds(Expression(ls, pos + 1).value.pos))
    ensures Expression(ls, pos + 1).Ok? && Expression(ls, pos + 1).value.pos < |ls| ==>
      var q := Expression(ls, pos + 1).value.pos;
      MultiplyDivisionLoop(ls, pos, acc) ==
        if ls[q].token != ClosingBracket then Err(UnexpectedLexeme(ls[q].text, q + 1))
        else MultiplyDivisionLoop(ls, q + 1, Apply(Multiply, acc, Expression(ls, pos + 1).value.value))
  {
    hide Expression, PlusMinus, PlusMinusLoop, MultiplyDivision, Factor, Apply;
  }

  /** The bracket case of the loop agrees on two lists once the bracketed
      expression and the rest of the loop do. */
  lemma BracketLoopsAgree(a: seq<Lexeme>, b: seq<Lexeme>, pos: nat, acc: Value)
    requires pos < |a| == |b| && a[pos].token == OpenBracket && b[pos].token == OpenBracket
    requires NoUnexpected(MultiplyDivisionLoop(a, pos, acc))
    requires Expression(b, pos + 1) == Expression(a, pos + 1)
    requires Expression(a, pos + 1).Ok? && Expression(a, pos + 1).value.pos < |a| ==>
      var q := Expression(a, pos + 1).value.pos;
      && a[q].token == b[q].token
      && (a[q].token == ClosingBracket ==>
            var next := Apply(Multiply, acc, Expression(a, pos + 1).value.value);
            MultiplyDivisionLoop(b, q + 1, next) == MultiplyDivisionLoop(a, q + 1, next))
    ensures MultiplyDivisionLoop(b, pos, acc) == MultiplyDivisionLoop(a, pos, acc)
  {
    LoopOnBracket(a, pos, acc);
    LoopOnBracket(b, pos, acc);
  }

  /** The implicit multiplication by a bracketed expression. */
  lemma {:induction false} GroupLoopSameTokens(a: seq<Lexeme>, b: seq<Lexeme>, pos: nat, acc: Value)
    requires pos < |a| && SameTokens(a, b) && a[pos].token == OpenBracket
    requires NoUnexpected(MultiplyDivisionLoop(a, pos, acc))
    ensures MultiplyDivisionLoop(b, pos, acc) == MultiplyDivisionLoop(a, pos, acc)
    decreases |a| - pos, 1
  {
    hide Expression, PlusMinus, PlusMinusLoop, MultiplyDivision, MultiplyDivisionLoop, Factor, Next, Apply, Signed;
    LoopOnBracket(a, pos, acc);
    ExpressionSameTokens(a, b, pos + 1);
    var inner := Expression(a, pos + 1);
    if inner.Ok? && inner.value.pos < |a| {
      var q := inner.value.pos;
      if a[q].token == ClosingBracket {
        MultiplyDivisionLoopSameTokens(a, b, q + 1, Apply(Multiply, acc, inner.value.value));
      }
    }
    BracketLoopsAgree(a, b, pos, acc);
  }

  lemma {:induction false} FactorSameTokens(a: seq<Lexeme>, b: seq<Lexeme>, pos: nat)
    requires pos <= |a| && SameTokens(a, b)
    requires NoUnexpected(Factor(a, pos))
    ensures Factor(b, pos) == Factor(a, pos)
    decreases |a| - pos, 0
  {
    hide PlusMinus, PlusMinusLoop, MultiplyDivision, MultiplyDivisionLoop, Next, Apply, Signed, ParseLiteral;
    if pos < |a| {
      var at := if a[pos].token == Minus then pos + 1 else pos;
      if at < |a| && a[at].token == OpenBracket {
        ExpressionSameTokens(a, b, at + 1);
      }
    }
  }
}
